=== FILE: README.md ===
# KlaSim core in Dafny

KlaSim is a Django application that simulates an exam. A visitor uploads one
exam document and any number of context files into a browser session. The
application then asks a chat-completion service for three answers, one per
performance level (low, medium, high), and stores each answer as a
one-paragraph Word document. An administrator sets up the application once
and logs in with a password. The administrator then edits the API key, the
language, two passwords and five prompt texts. Each prompt text is either
custom or the built-in default for the language. A management command
deletes sessions whose uploads are older than a lifetime.

This project models that core as pure functions over immutable data and
proves properties of it:

- `Text`, `Paths`, `Seqs` and `StringOrder` hold the Python primitives the
  code relies on: `str.join`, `str.split`, `str.lower`, `str.strip`,
  universal-newline reading, `os.path.splitext` (with a loop version of the
  scan the standard library performs), query filters as order-preserving
  selection, and `sorted` on a set of strings.
- `Records` holds the three record types and the store (`Store`): one
  sequence per table in primary-key order, and the next key to hand out.
  `.first()` orders by primary key; a filter without `order_by` is read in
  the same order, which the database does not promise. Its
  invariant `Valid` says keys increase and stay below the next key, session
  ids fit their 40-character column, and a session holds at most one exam.
- `Extraction` models `_read_file`. `Prompt` models `assemble_prompt`.
  `Generation` models `generate_ai_results`.
- `Uploads` models the two upload forms. `SimulatorViews` models the
  simulator's request handlers as transitions of the store and the browser
  session (`Http`).
- `Cleanup` models the `clean_sessions` command.
- `Settings` models the configuration records and `load_prompts`.
  `ConfigForms` models the setup and settings form saves. `ConfigViews`
  models the configuration views: the login gate, setup, login, settings,
  logout, the session list, the key test and the cleanup trigger.

The following become function parameters:

- the file system, as what each parser makes of a stored file
- the completion service and the key probe
- the environment key and the model setting
- password hashing, as a make/check pair
- the default prompt texts, as a total map over language and prompt type
- the clock, new session ids, and whether the database tables exist

Behaviours of the code worth noting:

- An unknown `lang` query parameter on the settings page ends in a server
  error, because the defaults table has no entry for it. Django then does not
  save the session.
- A failing completion request leaves the results of the earlier levels
  stored. The session's old results are already gone at that point.
- The cleanup button fails: the view calls the cleanup command with an `all`
  option the command does not declare (see "## Findings").

## Model

| member | source | states |
|---|---|---|
| Text.Join | simulator/services.py:28 | `sep.join(parts)`: empty for no parts, the part itself for one, and total length plus one separator between each pair |
| Text.JoinSplit | simulator/services.py:28 | splitting a join at the separator and joining again gives the original string back |
| Text.SplitJoin | simulator/services.py:28 | joining parts free of the separator and splitting the result again recovers the parts |
| Text.LowerChar | simulator/forms.py:14 | an ASCII capital moves 32 code points up to its small letter, every other character is kept, and no capital remains |
| Text.Lower | simulator/forms.py:14 | `str.lower` keeps the length and lower-cases each ASCII capital at its position, leaving every other character alone |
| Text.LowerIdempotent | simulator/forms.py:14 | lower-casing twice equals lower-casing once |
| Text.Strip | simulator/services.py:92 | the stripped answer is no longer than the input and neither starts nor ends with whitespace |
| Text.StripIsInfix | simulator/services.py:92 | the stripped answer is the input with a whitespace-only prefix and a whitespace-only suffix removed |
| Text.StripIdempotent | simulator/services.py:92 | stripping an already stripped answer changes nothing |
| Text.TranslateNewlines | simulator/services.py:41-42 | text-mode reading leaves no carriage return and never lengthens the text |
| Text.TranslateNewlinesJoin | simulator/services.py:41-42 | lines joined by LF, CR or CRLF read back joined by LF: every CR and CRLF line ending becomes LF |
| Text.TranslateNewlinesIdentity | simulator/services.py:41-42 | text without carriage returns is read back unchanged |
| Text.TranslateNewlinesIdempotent | simulator/services.py:41-42 | translating newlines twice equals translating once |
| Paths.LastIndex | simulator/forms.py:14 | the last occurrence of a character, or -1, with no occurrence after it |
| Paths.LastIndexUnique | simulator/forms.py:14 | any index meeting that description is the last occurrence |
| Paths.BaseName | simulator/forms.py:14 | the base name is the separator-free suffix of the path after its last separator |
| Paths.SplitExtRejoins | simulator/forms.py:14 | `splitext`: root and extension concatenate to the path |
| Paths.ExtShape | simulator/forms.py:14 | an extension is empty, or one dot followed by characters that are neither dots nor separators |
| Paths.ExtCharacterized | simulator/forms.py:14-16 | the extension is non-empty exactly when the base name has a dot after a non-dot character, and then it starts at the base name's last dot |
| Paths.ExtOfBaseName | simulator/forms.py:14 | the extension of a path is the extension of its base name |
| Paths.ExtOfPlainName | simulator/forms.py:14 | a name whose last dot follows a non-dot first character has the extension from that dot |
| Paths.NoDotNoExt | simulator/forms.py:14-16 | a name without a dot has an empty extension |
| Paths.DotFileNoExt | simulator/forms.py:14-16 | a dot file such as `.docx` has an empty extension |
| Paths.ExtUnderDirectory | simulator/models.py:9 | a file stored under a directory keeps the extension of its own name |
| Paths.SplitExtScan | simulator/forms.py:14 | the scan that finds the last separator and last dot and skips leading dots returns exactly `splitext` |
| Paths.LowerExtIgnoresCase | simulator/forms.py:14 | the lower-cased extension of a lower-cased path equals that of the path |
| Paths.LowerSplitExt | simulator/forms.py:14 | lower-casing commutes with taking the extension |
| Seqs.Filter | simulator/views.py:24 | a query filter keeps exactly the rows that pass, each from the input, in input order |
| Seqs.FilterNested | simulator/management/commands/clean_sessions.py:37-42 | selecting a session's rows after deleting other sessions equals selecting them directly |
| Seqs.FilterDropsOne | simulator/views.py:99-114 | when one row fails the test, filtering removes just that row |
| StringOrder.BelowTotal | simulator/forms.py:18 | any two strings are comparable |
| StringOrder.BelowTransitive | simulator/forms.py:18 | the string order is transitive |
| StringOrder.BelowAntisymmetric | simulator/forms.py:18 | strings ordered both ways are equal |
| StringOrder.SortedList | simulator/forms.py:18 | `sorted(set)` is strictly increasing and holds exactly the set's elements |
| StringOrder.SortedUnique | simulator/forms.py:18 | two strictly sorted lists with the same elements are equal, so the sorted list is determined by the set |
| Records.FirstExam | simulator/services.py:47-48 | `.first()` finds nothing exactly when the session has no exam, else one of its exams |
| Records.OnlyExam | simulator/views.py:74-78 | in a valid store a session has at most one exam, which is the one `.first()` returns |
| Records.SessionIds | config/views.py:139-143 | a session id is listed exactly when some context, exam or result row carries it |
| Records.ExamsExcept | simulator/views.py:75 | deleting a session's exams keeps exactly the exams of the other sessions |
| Records.ResultsExcept | simulator/services.py:71-73 | deleting a session's results keeps exactly the results of the other sessions |
| Records.ExamsReplaceScoped | simulator/views.py:75-78 | after deleting a session's exams and adding one, that session has only the new exam and others keep theirs |
| Records.ResultsExceptScoped | simulator/services.py:71-73 | deleting one session's results leaves every other session's results |
| Records.ResultsReplace | simulator/services.py:71-103 | replacing a session's results by freshly numbered ones keeps the store invariant |
| Extraction.FormatOf | simulator/services.py:25-40 | the reader is chosen by the lower-cased extension: `.docx`, `.csv`, `.pdf`, anything else plain text |
| Extraction.ReadFile | simulator/services.py:23-42 | a DOCX or CSV path gives the joined paragraphs or rows, or the parser's error; a PDF path never fails and gives the page texts joined by newlines, or `""` when reading raised; any other path gives the file's text with every CRLF and lone CR turned into LF, or the error opening it raised |
| Extraction.PlainTextLineEndings | simulator/services.py:41-42 | a plain-text file whose lines end in LF, CR or CRLF reads as the lines joined by LF |
| Extraction.ReadFileIgnoresCase | simulator/services.py:25 | two paths whose extensions differ only in case are read identically |
| Extraction.UpperCaseDocx | simulator/services.py:25-28 | `exam.DOCX` takes the DOCX branch and yields the paragraphs joined |
| Extraction.DocxText | simulator/services.py:28 | the DOCX text is empty without paragraphs, and otherwise the paragraphs with one newline between each pair |
| Extraction.DocxThreeParagraphs | simulator/services.py:28 | paragraphs `A`, `B`, `C` read as `A\nB\nC` |
| Extraction.DocxRoundTrip | simulator/services.py:28 | the DOCX text splits back at newlines into its paragraphs when none contains a newline |
| Extraction.CsvLines | simulator/services.py:32 | each CSV row becomes its cells joined by commas |
| Extraction.CsvText | simulator/services.py:32 | the CSV text is empty without rows, and otherwise the comma-joined rows with one newline between each pair |
| Extraction.CsvNoRows | simulator/services.py:29-32 | a CSV file with no rows reads as `""` |
| Extraction.CsvRoundTrip | simulator/services.py:29-32 | the CSV text splits back into its rows and cells when no cell holds a comma or newline |
| Extraction.PageTexts | simulator/services.py:37 | a page without text contributes the empty string |
| Prompt.Compose | simulator/services.py:55 | the prompt is `Exam:\n`, the exam, the context header, then the context, with length 28 plus both texts |
| Prompt.ComposeInjective | simulator/services.py:55 | exam and context can be read back from the prompt once the exam length is known |
| Prompt.ReadAll | simulator/services.py:52-53 | the files are read in order; success gives one text per file, failure is the error of a reader that raised after every earlier one succeeded |
| Prompt.ContextPaths | simulator/services.py:50-53 | the context paths are the session's context files in upload order |
| Prompt.Bounded | simulator/services.py:56-57 | a prompt is accepted exactly when its length is at most 25000, so exactly 25000 is accepted |
| Prompt.AssemblePrompt | simulator/services.py:45-58 | the result is the no-exam error exactly when the session has no exam; a returned prompt is at most 25000 characters |
| Prompt.AssembledPrompt | simulator/services.py:52-58 | with the files read, assembly fails as too large exactly when 28 plus both lengths exceeds 25000, and otherwise returns the filled template of that length |
| Prompt.AssemblyErrors | simulator/services.py:47-57 | with an exam present, a failure is an oversized prompt or a reader that raised on the exam or a context file |
| Prompt.OversizedScenario | simulator/services.py:56-57 | 24000 characters of exam and 2000 of context are refused |
| Prompt.NoExamNoPrompt | simulator/services.py:47-49 | without an exam no prompt is produced |
| Uploads.UnsupportedMessage | simulator/forms.py:16-19 | the rejection text starts with `Unsupported file type. Allowed: ` and, for one extension, names it |
| Uploads.CleanFile | simulator/forms.py:12-20 | `clean_file` accepts exactly when the lower-cased extension is allowed, returns the upload unchanged, and otherwise gives the listing error |
| Uploads.ValidateUpload | simulator/forms.py:8-20 | the form is valid exactly when a named, non-empty file with an allowed lower-cased extension was sent |
| Uploads.ContextRejectionText | simulator/forms.py:10-19 | the context form's message lists `.csv, .docx, .pdf, .txt` |
| Uploads.ExamRejectionText | simulator/forms.py:28-37 | the exam form's message lists `.docx` |
| Uploads.ExamAcceptedIsContextAccepted | simulator/forms.py:10-28 | every file the exam form accepts, the context form accepts |
| Uploads.NoExtensionRefused | simulator/forms.py:14-34 | a name without an extension is refused by both forms |
| Uploads.UpperCaseAccepted | simulator/forms.py:14-33 | `X.PDF` is a valid context file, returned unchanged, and `exam.DOCX` a valid exam |
| Uploads.DotFileRefused | simulator/forms.py:32-37 | the dot file `.docx` is refused by the exam form with its listing error |
| Uploads.PdfIsNoExam | simulator/forms.py:28-34 | a PDF is not accepted as an exam |
| SimulatorViews.EnsureSessionId | simulator/views.py:11-17 | an existing id is kept; otherwise the fresh id is stored and returned; the session then has an id |
| SimulatorViews.EnsureSessionIdStable | simulator/views.py:11-17 | a second call returns the same session and id whatever fresh id it is offered |
| SimulatorViews.Listing | simulator/views.py:22-26 | without a session id no files are listed; otherwise exactly the session's context and exam files |
| SimulatorViews.Index | simulator/views.py:20-37 | the index page changes nothing and shows the listing |
| SimulatorViews.UploadContext | simulator/views.py:40-66 | a GET redirects and changes nothing; an invalid form re-renders the listing with the error and changes nothing |
| SimulatorViews.UploadExam | simulator/views.py:69-96 | a GET redirects and changes nothing; an invalid form re-renders the listing with the error and changes nothing |
| SimulatorViews.DeleteContext | simulator/views.py:99-105 | it is a 404 exactly when the session owns no context with that key; then nothing changes, otherwise only that key's row is removed |
| SimulatorViews.DeleteExam | simulator/views.py:108-114 | it is a 404 exactly when the session owns no exam with that key; then nothing changes, otherwise only that key's row is removed |
| SimulatorViews.ContextUploadAppends | simulator/views.py:44-49 | a valid context upload appends one record stamped now to the session's files and leaves other sessions' files alone |
| SimulatorViews.ExamUploadReplaces | simulator/views.py:73-79 | after a valid exam upload the session has exactly the new exam and other sessions keep theirs |
| SimulatorViews.StoredExamReadsAsDocx | simulator/views.py:76-78 | an accepted exam is stored under a name the reader treats as DOCX |
| SimulatorViews.InvalidUploadChangesNothing | simulator/views.py:50-95 | an upload refused by the context form is refused by the exam form too, and neither changes the store or the session |
| SimulatorViews.DeleteContextRemovesOne | simulator/views.py:99-105 | deleting an owned context in a valid store removes exactly that one record |
| SimulatorViews.DeleteExamRemovesOne | simulator/views.py:108-114 | deleting an owned exam in a valid store removes exactly that one record |
| SimulatorViews.UploadContextKeepsValid | simulator/views.py:40-66 | a context upload keeps the store invariant and a fitting session id |
| SimulatorViews.UploadExamKeepsValid | simulator/views.py:69-96 | an exam upload keeps the store invariant, including one exam per session |
| SimulatorViews.DeletesKeepValid | simulator/views.py:99-114 | both deletes keep the store invariant |
| Generation.ClientKey | simulator/services.py:64 | the argument key is used when non-empty, else the environment's key |
| Generation.LevelPrompt | simulator/services.py:77-81 | each level's instruction is the prompt type named `level_` plus the level's name |
| Generation.UserContent | simulator/services.py:87 | the user message is the prompt, a blank line, the base prompt, a newline and the instruction |
| Generation.Messages | simulator/services.py:83-89 | two messages: the system prompt, then the user content for the level |
| Generation.MakeResult | simulator/services.py:100-102 | a stored result carries the level, the session id and the key it was given |
| Generation.ResultReadsBack | simulator/services.py:94-98 | the stored document reads back through the DOCX reader as the answer text |
| Generation.Trimmed | simulator/services.py:92 | a received answer is stripped; a failed request stays a failure with its error |
| Generation.RunLevels | simulator/services.py:82-103 | the level loop never touches the context and exam tables |
| Generation.Answered | simulator/services.py:82-103 | the stored results are the answered prefix of the levels, numbered from the next key, ending at the first failed request |
| Generation.RunLevelsStore | simulator/services.py:82-103 | the level loop appends exactly the answered prefix to the results and advances the key by its length |
| Generation.RunLevelsResult | simulator/services.py:82-105 | the loop returns the answered results exactly when every level was answered, and otherwise the first failure |
| Generation.RunLevelsAnswered | simulator/services.py:82-105 | store and outcome of the level loop together, in terms of the answered prefix |
| Generation.GenerateResults | simulator/services.py:61-105 | a prompt failure or a missing key changes nothing, not even the old results; uploads are never touched |
| Generation.SuccessfulRun | simulator/services.py:61-105 | a successful run yields three results, low, medium, high, each named `<level>.docx` under the session before the storage suffix and holding the stripped answer, replacing the session's old results |
| Generation.GeneratedStore | simulator/services.py:71-103 | once the prompt and the key are there, the stored results are the other sessions' results followed by the answered levels, and the key advances by their number |
| Generation.FailedRequestKeepsEarlierLevels | simulator/services.py:71-103 | a failed request leaves the other sessions' results and fewer than three new results for the session |
| Generation.OtherSessionsUntouched | simulator/services.py:71-73 | a run never changes another session's results |
| Generation.GenerateKeepsValid | simulator/services.py:61-105 | a run keeps the store invariant |
| Generation.AnsweredNumbered | simulator/services.py:100-102 | the new results are numbered from the next key and belong to the session |
| Cleanup.Cutoff | simulator/management/commands/clean_sessions.py:22-23 | the cutoff lies the configured number of days, or seven days when unset, before now |
| Cleanup.StaleSessions | simulator/management/commands/clean_sessions.py:25-31 | a session is stale exactly when one of its context or exam files is older than the cutoff |
| Cleanup.RemoveSessions | simulator/management/commands/clean_sessions.py:36-42 | every row of the given sessions is removed from all three tables, and nothing else |
| Cleanup.CleanSessions | simulator/management/commands/clean_sessions.py:21-50 | without tables nothing changes; nothing changes exactly when no session is stale |
| Cleanup.CallCleanSessions | config/views.py:182 | calling the command fails exactly when an option outside the common command options is passed; otherwise the command runs |
| Cleanup.AllOptionRefused | config/views.py:182 | the `all` option is refused |
| Cleanup.CleanAll | config/views.py:180 | with tables present, deleting every session empties all three tables and counts the distinct sessions |
| Cleanup.StaleSessionsEmptied | simulator/management/commands/clean_sessions.py:36-48 | the count is the number of stale sessions, and each loses every file and result, new ones included |
| Cleanup.FreshSessionsKept | simulator/management/commands/clean_sessions.py:36-42 | the rows of a session that is not stale are unchanged |
| Cleanup.KeptAfterRemoval | simulator/management/commands/clean_sessions.py:37-42 | removing other sessions leaves a session's rows as they were |
| Cleanup.CutoffIsStrict | simulator/management/commands/clean_sessions.py:27-30 | a file uploaded exactly at the cutoff does not make its session stale |
| Cleanup.ResultsOnlyNeverStale | simulator/management/commands/clean_sessions.py:26-31 | a session with only results is never selected |
| Cleanup.SecondRunIsNoOp | simulator/management/commands/clean_sessions.py:26-50 | a second run at the same time changes nothing and finds no stale session |
| Cleanup.CleanKeepsValid | simulator/management/commands/clean_sessions.py:36-42 | cleaning keeps the store invariant |
| Settings.ParseLanguage | config/models.py:10 | only `en` and `de` are languages, each read back from its code |
| Settings.PromptTypesComplete | config/models.py:37-43 | the five prompt types are all walked |
| Settings.GetSolo | config/models.py:13-16 | the pk 1 row is returned, created with defaults when absent; an existing row is untouched |
| Settings.GetSoloIdempotent | config/models.py:13-16 | a second call returns the same row and creates nothing |
| Settings.SetAdminPassword | config/models.py:18-19 | only the admin hash changes |
| Settings.SetSimulationPassword | config/models.py:24-27 | only the simulation hash changes, and an empty or absent password clears it |
| Settings.CheckSimulationPassword | config/models.py:29-32 | without a simulation hash every input is accepted |
| Settings.CheckAdminPassword | config/models.py:21-22 | a password whose hash is stored checks |
| Settings.AdminPasswordRoundTrip | config/models.py:18-22 | a set admin password checks |
| Settings.SimulationPasswordRoundTrip | config/models.py:24-32 | a set simulation password checks |
| Settings.ClearedSimulationPasswordAdmitsAll | config/models.py:24-32 | after an empty simulation password, any input is accepted |
| Settings.FindIndex | config/models.py:50-51 | the index of the first row for a language and type, or -1 when none matches |
| Settings.FindPrompt | config/utils.py:10 | `.first()` returns a matching row, and nothing exactly when no row matches |
| Settings.FindPromptUnique | config/models.py:50-51 | with unique rows, the row found is the one row for that language and type |
| Settings.ResolvePrompt | config/utils.py:10-14 | the text is the default or the text of a custom row for the language and type, and the default when no such row is custom |
| Settings.LoadPrompts | config/utils.py:5-15 | there is one text for each of the five types, and the config row is created if missing |
| Settings.LoadPromptsResolution | config/utils.py:6-14 | a type yields the stored text when the configured language's row is custom, and the default otherwise, even if a non-custom row holds text |
| Settings.SavePrompt | config/views.py:103-111 | `get_or_create` then save stores the row, keeps every other row, adds no other row and keeps uniqueness |
| ConfigForms.SaveSetup | config/forms.py:12-22 | the key and language are copied, the admin hash changes only for a non-empty password, the simulation hash is always rewritten, and setup becomes complete |
| ConfigForms.SaveSettings | config/forms.py:37-45 | as setup, but the admin hash follows the new password and the setup flag is left alone |
| ConfigForms.SetupThenLogin | config/forms.py:12-22 | after setup the admin password checks, and the simulation accepts its password, or anything when none was given |
| ConfigForms.SettingsKeepAdminPassword | config/forms.py:37-45 | an empty new password keeps the old admin password working |
| ConfigViews.Gate | config/views.py:18-24 | without the login flag the view does not run and the request redirects to login |
| ConfigViews.Login | config/views.py:60-75 | before setup the request redirects to setup; the flag is only ever set by a redirect to settings |
| ConfigViews.LoginOutcome | config/views.py:66-75 | after setup, a posted password sets the flag exactly when it checks, and otherwise shows `Invalid password` with the session unchanged |
| ConfigViews.Setup | config/views.py:37-49 | once setup is complete it redirects and changes nothing; a valid post saves the setup form |
| ConfigViews.SetupOnce | config/views.py:37-49 | after the first valid setup a second is refused unchanged and the chosen admin password logs in |
| ConfigViews.ShownPrompt | config/views.py:85-92 | the shown text is the resolved prompt; the checkbox is set exactly when a custom row exists |
| ConfigViews.ShownPrompts | config/views.py:84-92 | all five types are shown |
| ConfigViews.SavePrompts | config/views.py:102-111 | the save loop keeps one row per language and type |
| ConfigViews.SavePromptsKeeps | config/views.py:102-111 | the save loop keeps every row of another language or type |
| ConfigViews.SavePromptsAddsNone | config/views.py:102-111 | the save loop adds no row of another language or type |
| ConfigViews.SavePromptsStored | config/views.py:102-111 | after the loop each saved type's row holds the checkbox and the submitted text if custom, else the default |
| ConfigViews.SettingsView | config/views.py:78-126 | the file store is untouched, and a valid post in a known display language performs the save |
| ConfigViews.SettingsSaved | config/views.py:94-113 | the save branch never touches the file store |
| ConfigViews.SettingsShown | config/views.py:114-126 | showing the page only records the display language in the session |
| ConfigViews.GatedSettingsView | config/views.py:78-79 | without the login flag the settings page redirects to login |
| ConfigViews.ShownIsResolved | config/views.py:80-92 | a GET shows, per type, the prompt resolved for the display language, and records that language in the session |
| ConfigViews.UnknownLanguageFails | config/views.py:81-92 | an unknown display language is a server error that changes nothing |
| ConfigViews.SettingsSaveStoresPrompts | config/views.py:94-113 | after a valid save each type of the new language holds the checkbox and the text, prompt resolution returns that text, the settings form is saved, and the request redirects to the new language |
| ConfigViews.SavedPrompts | config/views.py:102-111 | the save branch stores, per type, the submitted row that prompt resolution then returns |
| ConfigViews.SettingsPostSaves | config/views.py:94-113 | a logged-in valid post with a known display language takes the save branch |
| ConfigViews.Logout | config/views.py:129-131 | logout clears the flag, changes nothing else and redirects to the index |
| ConfigViews.LogoutLocksSettings | config/views.py:129-131 | after logout the settings page redirects to login |
| ConfigViews.Sessions | config/views.py:134-154 | the logged-in admin sees the session ids of all three tables; nothing changes |
| ConfigViews.SessionsListed | config/views.py:139-143 | a session is listed exactly when it owns a context, exam or result row |
| ConfigViews.KeyToTest | config/views.py:56 | the posted key when non-empty, else the stored key |
| ConfigViews.TestApiKey | config/views.py:52-57 | the probe's verdict on that key is returned as JSON |
| ConfigViews.PostedKeyOverridesStored | config/views.py:52-57 | a missing or empty posted key makes the probe check the stored key; a non-empty one is probed instead |
| ConfigViews.CleanupSessionsAsWritten | config/views.py:178-184 | nothing ever changes; a logged-in POST is a server error and a logged-in GET redirects to the session list |
| ConfigViews.CleanupAsWrittenDeletesNothing | config/views.py:181-183 | a logged-in POST ends in a server error and a stale context file is still stored |
| ConfigViews.CleanupSessions | config/views.py:178-184 | as intended: a logged-in POST with tables present empties all three tables; every logged-in request redirects to the session list |
| ConfigViews.CleanupEmptiesSessionList | config/views.py:178-184 | after the intended cleanup no session is listed |

## Left out

- The chat-completion service and the key probe are parameters. The network calls, the client objects and `_check_openai_key`'s exception handling are not modelled.
- python-docx, PyPDF2 and the csv reader are replaced by their parsed results (`FileContent`). Character decoding with `errors="ignore"` is not modelled.
- File writes and deletes, `mkdir`, `rmtree` and the stored files' bytes are not modelled. Records keep their storage name only.
- Django form validation other than the file field's own checks is abstracted. A form is valid or not, and its cleaned data is given; required fields and `CharField` stripping happen before the model sees the data.
- Storage-name sanitising and the random suffix Django's storage appends to a taken name are not modelled. Records store `<dir>/<uploaded name>`, and a result stores `ai_results/<session id>/<level>.docx`.
- Generation.SuccessfulRun: states the result name as `ai_results/<session id>/<level>.docx`. Because simulator/services.py:98 has already written a file at that path, the storage call at line 102 always appends `_` and seven random characters to the stored name.
- SimulatorViews.StoredExamReadsAsDocx: holds for the uploaded name as given. Django's storage drops characters outside `[-\w.]`, so an upload named `!.docx` is stored as `exam_files/.docx`, which has no extension and is read as plain text.
- Prompt.ContextPaths: assumes the context files come back in upload (primary-key) order. The query at simulator/services.py:50 has no `order_by` and the model declares no ordering, so the database chooses the order.
- The result document holds the answer as one paragraph. python-docx turning newlines inside it into line breaks is not modelled.
- Text.LowerChar: maps ASCII capitals only, for the same reason as the next line.
- Text.Lower: lower-cases ASCII letters only. Python's `str.lower` also maps other Unicode letters, which the allowed extensions never contain.
- Password hashing and salting are an abstract make/check pair. Its only assumed property is that a password checks against its own hash.
- The literal default prompt texts are not modelled. They are an arbitrary total map over language and prompt type.
- `call_command` is modelled only by its option check: the options every command accepts (those the base parser declares, `help` and `version` among them, and the stealth options `stdout` and `stderr`) pass, and any other name is refused before the command runs.
- The ZIP download, the `clearsessions` call, rendering, flash messages, translation activation, URLs and migrations are left out.
- The `key_valid` check on the settings page is left out. It is a network probe whose result is only displayed.
- One primary-key counter is shared by all three tables. The code relies only on keys being unique within a table.
- Time is whole seconds rather than microsecond timestamps.
- The 40-character session-id column is kept as an invariant of the store. A longer id from a tampered cookie is not modelled.
- Concurrency and transactions are left out: each request runs alone.

## Findings

| source | as written | input that shows it | evidently intended | confidence | as-written member | corrected member |
|---|---|---|---|---|---|---|
| config/views.py:182 | `call_command("clean_sessions", all=True)`; the command declares no `all` option, so the call raises `TypeError` | a logged-in administrator POSTs to the cleanup URL: the reply is a server error and every stored record, stale or not, remains | delete every stored session and redirect to the session list, as the view's docstring says and config/tests.py:19-21 expects | not executed | ConfigViews.CleanupAsWrittenDeletesNothing | ConfigViews.CleanupSessions |

=== FILE: cleanup.dfy ===
/** The `clean_sessions` management command
    (simulator/management/commands/clean_sessions.py): every session that
    still holds an uploaded file older than the lifetime loses all its
    records. Times are whole seconds. */
module Cleanup {
  import opened Wrappers
  import opened Seqs
  import opened Records

  /** `SESSION_LIFETIME_DAYS` when the setting is absent. */
  const DefaultLifetimeDays := 7
  const SecondsPerDay := 86400

  /** `timezone.now() - timedelta(days=lifetime)`. */
  function Cutoff(now: int, lifetimeDays: Option<int>): (c: int)
    ensures lifetimeDays.None? ==> c == now - 604800
    ensures lifetimeDays.Some? ==> now - c == lifetimeDays.value * 86400
  {
    now - lifetimeDays.GetOr(DefaultLifetimeDays) * SecondsPerDay
  }

  /** A context or exam file uploaded strictly before the cutoff marks its
      session as stale; results carry no time and mark nothing. */
  function StaleSessions(st: Store, cutoff: int): (ids: set<string>)
    ensures forall sid :: sid in ids <==>
      (|| (exists c :: c in st.contexts && c.sessionId == sid && c.uploadTime < cutoff)
       || (exists e :: e in st.exams && e.sessionId == sid && e.uploadTime < cutoff))
  {
    (set c | c in st.contexts && c.uploadTime < cutoff :: c.sessionId)
    + (set e | e in st.exams && e.uploadTime < cutoff :: e.sessionId)
  }

  /** Every record of the given sessions deleted, from all three tables. */
  function RemoveSessions(st: Store, ids: set<string>): (r: Store)
    ensures r.nextPk == st.nextPk
    ensures forall c :: c in r.contexts <==> c in st.contexts && c.sessionId !in ids
    ensures forall e :: e in r.exams <==> e in st.exams && e.sessionId !in ids
    ensures forall a :: a in r.results <==> a in st.results && a.sessionId !in ids
  {
    Store(
      Filter(st.contexts, (c: ContextFile) => c.sessionId !in ids),
      Filter(st.exams, (e: ExamFile) => e.sessionId !in ids),
      Filter(st.results, (a: AIResult) => a.sessionId !in ids),
      st.nextPk)
  }

  /** What the command writes to its output. */
  datatype Report =
    | NotInitialised        // the tables do not exist yet
    | NoneStale             // "No stale sessions found."
    | Deleted(count: nat)   // "Deleted <count> stale session(s)."

  /** `Command.handle`. `initialised` is false when the database has no
      tables and the first query raises. */
  function CleanSessions(st: Store, now: int, lifetimeDays: Option<int>, initialised: bool): (r: (Store, Report))
    ensures !initialised ==> r == (st, NotInitialised)
    ensures r.1 == NoneStale ==> r.0 == st
    ensures initialised ==> (r.1 == NoneStale <==> StaleSessions(st, Cutoff(now, lifetimeDays)) == {})
  {
    if !initialised then (st, NotInitialised)
    else
      var stale := StaleSessions(st, Cutoff(now, lifetimeDays));
      if stale == {} then (st, NoneStale)
      else (RemoveSessions(st, stale), Deleted(|stale|))
  }

  /** The options `call_command` accepts for every command: those the base
      command's parser declares (`help` and `version` included) and its
      stealth options `stdout` and `stderr`; `clean_sessions` declares none
      of its own. */
  const CommonOptions: set<string> :=
    {"help", "version", "verbosity", "settings", "pythonpath", "traceback", "no_color", "force_color",
     "skip_checks", "stdout", "stderr"}

  /** `call_command("clean_sessions", **options)`: an option the command's
      parser does not declare raises `TypeError` before `handle` runs. */
  function CallCleanSessions(st: Store, options: set<string>, now: int, lifetimeDays: Option<int>, initialised: bool)
    : (r: Result<(Store, Report), string>)
    ensures r.Failure? <==> exists o :: o in options && o !in CommonOptions
    ensures r.Success? ==> r.value.0 == st || r.value.1.Deleted?
  {
    if options <= CommonOptions then Success(CleanSessions(st, now, lifetimeDays, initialised))
    else Failure("Unknown option(s) for clean_sessions command")
  }

  /** The `all=True` that the cleanup page passes is not an option of the
      command, so the call raises and nothing is deleted. */
  lemma AllOptionRefused(st: Store, now: int, lifetimeDays: Option<int>, initialised: bool)
    ensures CallCleanSessions(st, {"all"}, now, lifetimeDays, initialised).Failure?
  {
    assert "all" !in CommonOptions;
  }

  /** Deleting every session's records, whatever their age: what the
      cleanup page means by `all=True`. */
  function CleanAll(st: Store, initialised: bool): (r: (Store, Report))
    ensures !initialised ==> r == (st, NotInitialised)
    ensures initialised ==> && r.0.contexts == [] && r.0.exams == [] && r.0.results == []
                            && r.0.nextPk == st.nextPk
    ensures initialised ==> (r.1 == NoneStale <==> SessionIds(st) == {})
    ensures r.1.Deleted? ==> r.1.count == |SessionIds(st)|
  {
    if !initialised then (st, NotInitialised)
    else
      var ids := SessionIds(st);
      var r := RemoveSessions(st, ids);
      FilterNone(st.contexts, (c: ContextFile) => c.sessionId !in ids);
      FilterNone(st.exams, (e: ExamFile) => e.sessionId !in ids);
      FilterNone(st.results, (a: AIResult) => a.sessionId !in ids);
      if ids == {} then (r, NoneStale) else (r, Deleted(|ids|))
  }

  /** The reported count is the number of distinct stale sessions, and each
      of them has lost every context file, exam file and result, even those
      uploaded after the cutoff. */
  lemma StaleSessionsEmptied(st: Store, now: int, lifetimeDays: Option<int>, sid: string)
    requires CleanSessions(st, now, lifetimeDays, true).1.Deleted?
    ensures var stale := StaleSessions(st, Cutoff(now, lifetimeDays));
      var r := CleanSessions(st, now, lifetimeDays, true);
      && r.1.count == |stale|
      && (sid in stale ==> ContextsOf(r.0, sid) == [] && ExamsOf(r.0, sid) == [] && ResultsOf(r.0, sid) == [])
  {
    var stale := StaleSessions(st, Cutoff(now, lifetimeDays));
    var r := CleanSessions(st, now, lifetimeDays, true).0;
    if sid in stale {
      FilterNone(r.contexts, (c: ContextFile) => c.sessionId == sid);
      FilterNone(r.exams, (e: ExamFile) => e.sessionId == sid);
      FilterNone(r.results, (a: AIResult) => a.sessionId == sid);
    }
  }

  /** The records of a session that is not stale are exactly as before. */
  lemma FreshSessionsKept(st: Store, now: int, lifetimeDays: Option<int>, initialised: bool, sid: string)
    requires sid !in StaleSessions(st, Cutoff(now, lifetimeDays))
    ensures var r := CleanSessions(st, now, lifetimeDays, initialised).0;
      && ContextsOf(r, sid) == ContextsOf(st, sid)
      && ExamsOf(r, sid) == ExamsOf(st, sid)
      && ResultsOf(r, sid) == ResultsOf(st, sid)
  {
    var stale := StaleSessions(st, Cutoff(now, lifetimeDays));
    if initialised && stale != {} {
      KeptAfterRemoval(st, stale, sid);
    }
  }

  /** Removing other sessions leaves a session's records as they were. */
  lemma KeptAfterRemoval(st: Store, ids: set<string>, sid: string)
    requires sid !in ids
    ensures var r := RemoveSessions(st, ids);
      && ContextsOf(r, sid) == ContextsOf(st, sid)
      && ExamsOf(r, sid) == ExamsOf(st, sid)
      && ResultsOf(r, sid) == ResultsOf(st, sid)
  {
    FilterNested(st.contexts, (c: ContextFile) => c.sessionId !in ids, (c: ContextFile) => c.sessionId == sid);
    FilterNested(st.exams, (e: ExamFile) => e.sessionId !in ids, (e: ExamFile) => e.sessionId == sid);
    FilterNested(st.results, (a: AIResult) => a.sessionId !in ids, (a: AIResult) => a.sessionId == sid);
  }

  /** A file uploaded exactly at the cutoff does not make its session stale. */
  lemma CutoffIsStrict(now: int, lifetimeDays: Option<int>, c: ContextFile)
    requires c.uploadTime == Cutoff(now, lifetimeDays)
    ensures StaleSessions(Store([c], [], [], c.pk + 1), Cutoff(now, lifetimeDays)) == {}
  {
  }

  /** A session that holds only results is never selected. */
  lemma ResultsOnlyNeverStale(st: Store, cutoff: int, sid: string)
    requires forall c :: c in st.contexts ==> c.sessionId != sid
    requires forall e :: e in st.exams ==> e.sessionId != sid
    ensures sid !in StaleSessions(st, cutoff)
  {
  }

  /** A second run at the same time finds nothing and changes nothing. */
  lemma SecondRunIsNoOp(st: Store, now: int, lifetimeDays: Option<int>, initialised: bool)
    ensures var r1 := CleanSessions(st, now, lifetimeDays, initialised);
      var r2 := CleanSessions(r1.0, now, lifetimeDays, initialised);
      r2.0 == r1.0 && (initialised ==> r2.1 == NoneStale)
  {
  }

  /** Cleaning keeps the store invariant. */
  lemma CleanKeepsValid(st: Store, now: int, lifetimeDays: Option<int>, initialised: bool)
    requires Valid(st)
    ensures Valid(CleanSessions(st, now, lifetimeDays, initialised).0)
  {
    var stale := StaleSessions(st, Cutoff(now, lifetimeDays));
    ContextsFilter(st.contexts, st.nextPk, (c: ContextFile) => c.sessionId !in stale);
    ExamsFilter(st.exams, st.nextPk, (e: ExamFile) => e.sessionId !in stale);
    ResultsFilter(st.results, st.nextPk, (a: AIResult) => a.sessionId !in stale);
  }
}

=== FILE: config_forms.dfy ===
/** The saves of the setup and settings forms (config/forms.py). The fields a
    form validates are given as its cleaned data; what each save writes into
    the configuration row is modelled exactly. */
module ConfigForms {
  import opened Wrappers
  import opened Settings

  /** `SetupForm.cleaned_data`: the two model fields and the two passwords. */
  datatype SetupData = SetupData(
    openaiApiKey: string,
    language: Language,
    adminPassword: Option<string>,
    simulationPassword: Option<string>)

  /** `SettingsForm.cleaned_data`. */
  datatype SettingsData = SettingsData(
    openaiApiKey: string,
    language: Language,
    newPassword: Option<string>,
    simulationPassword: Option<string>)

  /** `SetupForm.save()`: the model fields are copied, the admin hash is
      replaced only by a non-empty password, the simulation hash is always
      rewritten, and setup is marked complete. */
  function SaveSetup(cfg: AppConfig, data: SetupData, h: Hasher): (r: AppConfig)
    ensures r.openaiApiKey == data.openaiApiKey && r.language == data.language
    ensures r.setupComplete
    ensures r.adminPasswordHash == (if Truthy(data.adminPassword) then h.make(data.adminPassword.value)
                                    else cfg.adminPasswordHash)
    ensures r.simulationPasswordHash == SetSimulationPassword(cfg, data.simulationPassword, h).simulationPasswordHash
  {
    var c := cfg.(openaiApiKey := data.openaiApiKey, language := data.language);
    var c := if Truthy(data.adminPassword) then SetAdminPassword(c, data.adminPassword.value, h) else c;
    var c := SetSimulationPassword(c, data.simulationPassword, h);
    c.(setupComplete := true)
  }

  /** `SettingsForm.save()`: as the setup save, but the admin hash follows
      `new_password` and the setup flag is left alone. */
  function SaveSettings(cfg: AppConfig, data: SettingsData, h: Hasher): (r: AppConfig)
    ensures r.openaiApiKey == data.openaiApiKey && r.language == data.language
    ensures r.setupComplete == cfg.setupComplete
    ensures r.adminPasswordHash == (if Truthy(data.newPassword) then h.make(data.newPassword.value)
                                    else cfg.adminPasswordHash)
    ensures r.simulationPasswordHash == SetSimulationPassword(cfg, data.simulationPassword, h).simulationPasswordHash
  {
    var c := cfg.(openaiApiKey := data.openaiApiKey, language := data.language);
    var c := if Truthy(data.newPassword) then SetAdminPassword(c, data.newPassword.value, h) else c;
    SetSimulationPassword(c, data.simulationPassword, h)
  }

  /** After setup with an admin password, that password logs in, and the
      simulation accepts its own password or, when none was given, anything. */
  lemma SetupThenLogin(cfg: AppConfig, data: SetupData, h: Hasher, attempt: string)
    requires Sound(h)
    requires Truthy(data.adminPassword)
    ensures CheckAdminPassword(SaveSetup(cfg, data, h), data.adminPassword.value, h)
    ensures Truthy(data.simulationPassword) ==>
      CheckSimulationPassword(SaveSetup(cfg, data, h), data.simulationPassword.value, h)
    ensures !Truthy(data.simulationPassword) ==> CheckSimulationPassword(SaveSetup(cfg, data, h), attempt, h)
  {
  }

  /** A settings save with an empty password field keeps the admin password
      working and, with an empty simulation field, opens the simulation. */
  lemma SettingsKeepAdminPassword(cfg: AppConfig, data: SettingsData, h: Hasher, p: string, attempt: string)
    requires !Truthy(data.newPassword)
    requires CheckAdminPassword(cfg, p, h)
    ensures CheckAdminPassword(SaveSettings(cfg, data, h), p, h)
    ensures !Truthy(data.simulationPassword) ==> CheckSimulationPassword(SaveSettings(cfg, data, h), attempt, h)
  {
  }
}

=== FILE: config_views.dfy ===
/** The configuration app's request handlers (config/views.py) as
    transitions of the configuration tables, the file store and the browser
    session. The key probe is a parameter; rendering keeps only what the
    handlers compute for the page. */
module ConfigViews {
  import opened Wrappers
  import opened Settings
  import opened ConfigForms
  import opened Http
  import opened Records
  import opened Cleanup

  datatype Target = ToIndex | ToSetup | ToLogin | ToSettings(lang: Option<string>) | ToSessions

  /** A prompt as the settings page shows it: the checkbox and the text. */
  datatype PromptView = PromptView(custom: bool, text: string)

  datatype Page =
    | SetupPage
    | LoginPage(error: Option<string>)
    /** `prompts` is absent when a rejected submission is shown again. */
    | SettingsPage(language: string, prompts: Option<map<PromptType, PromptView>>, simulationPasswordSet: bool)
    | SessionsPage(ids: set<string>)

  datatype Reply = Redirect(to: Target) | Render(page: Page) | Json(ok: bool) | ServerError

  /** What a request can change. */
  datatype World = World(db: ConfigDb, store: Store, session: HttpSession)

  datatype Step = Step(world: World, reply: Reply)

  const InvalidPassword := "Invalid password"

  /** `admin_login_required`: without the flag the view does not run. */
  function Gate(w: World, inner: Step): (r: Step)
    ensures w.session.adminLoggedIn ==> r == inner
    ensures !w.session.adminLoggedIn ==> r.world == w && r.reply == Redirect(ToLogin)
  {
    if w.session.adminLoggedIn then inner else Step(w, Redirect(ToLogin))
  }

  /** `login_view`. `password` is the cleaned field, absent when the form is invalid. */
  function Login(w: World, verb: Method, password: Option<string>, h: Hasher): (r: Step)
    ensures r.world.db == GetSolo(w.db).0 && r.world.store == w.store
    ensures !GetSolo(w.db).1.setupComplete ==> r.reply == Redirect(ToSetup) && r.world.session == w.session
    ensures r.world.session.adminLoggedIn ==> w.session.adminLoggedIn || r.reply == Redirect(ToSettings(None))
  {
    var (db1, cfg) := GetSolo(w.db);
    var w1 := w.(db := db1);
    if !cfg.setupComplete then Step(w1, Redirect(ToSetup))
    else if verb == Get || password.None? then Step(w1, Render(LoginPage(None)))
    else if CheckAdminPassword(cfg, password.value, h) then
      Step(w1.(session := w.session.(adminLoggedIn := true)), Redirect(ToSettings(None)))
    else Step(w1, Render(LoginPage(Some(InvalidPassword))))
  }

  /** Once setup is complete, a posted password logs in exactly when it
      checks against the stored hash; otherwise the page shows the error
      and the flag is unchanged. */
  lemma LoginOutcome(w: World, p: string, h: Hasher)
    requires GetSolo(w.db).1.setupComplete
    ensures var r := Login(w, Post, Some(p), h);
      var ok := CheckAdminPassword(GetSolo(w.db).1, p, h);
      && (ok ==> r.world.session.adminLoggedIn && r.reply == Redirect(ToSettings(None)))
      && (!ok ==> r.world.session == w.session && r.reply == Render(LoginPage(Some(InvalidPassword))))
  {
  }

  /** `setup_view`. `data` is the cleaned form, absent when it is invalid. */
  function Setup(w: World, verb: Method, data: Option<SetupData>, h: Hasher): (r: Step)
    ensures r.world.store == w.store && r.world.session == w.session
    ensures r.world.db.prompts == w.db.prompts
    ensures GetSolo(w.db).1.setupComplete ==> r == Step(w, Redirect(ToIndex))
    ensures verb == Post && data.Some? && !GetSolo(w.db).1.setupComplete ==>
      r.world.db.solo == Some(SaveSetup(GetSolo(w.db).1, data.value, h)) && r.reply == Redirect(ToIndex)
  {
    var (db1, cfg) := GetSolo(w.db);
    if cfg.setupComplete then Step(w.(db := db1), Redirect(ToIndex))
    else if verb == Post && data.Some? then
      Step(w.(db := db1.(solo := Some(SaveSetup(cfg, data.value, h)))), Redirect(ToIndex))
    else Step(w.(db := db1), Render(SetupPage))
  }

  /** The first valid setup completes setup, after which a second one is
      refused and the admin can log in with the password it set. */
  lemma SetupOnce(w: World, data: SetupData, again: SetupData, h: Hasher)
    requires !GetSolo(w.db).1.setupComplete
    requires Sound(h) && Truthy(data.adminPassword)
    ensures var w1 := Setup(w, Post, Some(data), h).world;
      && Setup(w1, Post, Some(again), h) == Step(w1, Redirect(ToIndex))
      && Login(w1, Post, data.adminPassword, h).world.session.adminLoggedIn
  {
  }

  /** A prompt as the settings page shows it for a language. */
  function ShownPrompt(rows: seq<PromptConfig>, lang: Language, t: PromptType, defaults: Defaults): (v: PromptView)
    ensures v.text == ResolvePrompt(rows, lang, t, defaults)
    ensures v.custom <==> FindPrompt(rows, lang, t).Some? && FindPrompt(rows, lang, t).value.isCustom
  {
    match FindPrompt(rows, lang, t)
    case Some(pc) => PromptView(pc.isCustom, if pc.isCustom then pc.text else defaults(lang, t))
    case None => PromptView(false, defaults(lang, t))
  }

  function ShownPrompts(rows: seq<PromptConfig>, lang: Language, defaults: Defaults): (m: map<PromptType, PromptView>)
    ensures m.Keys == AllPromptTypes
  {
    map t | t in AllPromptTypes :: ShownPrompt(rows, lang, t, defaults)
  }

  /** What the prompt form submits for each type: the checkbox and the text. */
  type Submission = PromptType -> PromptView

  /** The text saved for a type: the submitted text when custom, else the default. */
  function SavedText(sub: Submission, lang: Language, t: PromptType, defaults: Defaults): string
  {
    if sub(t).custom then sub(t).text else defaults(lang, t)
  }

  /** The save loop over the prompt types, one `get_or_create` and save
      each; it keeps (language, type) unique. */
  function SavePrompts(rows: seq<PromptConfig>, types: seq<PromptType>, lang: Language, sub: Submission, defaults: Defaults)
    : (r: seq<PromptConfig>)
    ensures UniquePrompts(rows) ==> UniquePrompts(r)
    decreases |types|
  {
    if |types| == 0 then rows
    else
      var t := types[0];
      var rows1 := SavePrompt(rows, lang, t, sub(t).custom, SavedText(sub, lang, t, defaults));
      SavePrompts(rows1, types[1..], lang, sub, defaults)
  }

  /** Whether the loop leaves a row alone: another language, or a type it does not save. */
  predicate Untouched(row: PromptConfig, lang: Language, types: seq<PromptType>)
  {
    row.language != lang || row.promptType !in types
  }

  /** The save loop keeps every row it leaves alone. */
  lemma {:induction false} SavePromptsKeeps(rows: seq<PromptConfig>, types: seq<PromptType>, lang: Language, sub: Submission, defaults: Defaults, row: PromptConfig)
    requires row in rows && Untouched(row, lang, types)
    ensures row in SavePrompts(rows, types, lang, sub, defaults)
    decreases |types|
  {
    if |types| > 0 {
      var t := types[0];
      var rows1 := SavePrompt(rows, lang, t, sub(t).custom, SavedText(sub, lang, t, defaults));
      var k :| 0 <= k < |rows| && rows[k] == row;
      assert !Matches(rows[k], lang, t);
      assert Untouched(row, lang, types[1..]);
      SavePromptsKeeps(rows1, types[1..], lang, sub, defaults, row);
    }
  }

  /** The save loop adds no row it was not asked to save. */
  lemma {:induction false} SavePromptsAddsNone(rows: seq<PromptConfig>, types: seq<PromptType>, lang: Language, sub: Submission, defaults: Defaults, row: PromptConfig)
    requires row in SavePrompts(rows, types, lang, sub, defaults) && Untouched(row, lang, types)
    ensures row in rows
    decreases |types|
  {
    if |types| > 0 {
      var t := types[0];
      var rows1 := SavePrompt(rows, lang, t, sub(t).custom, SavedText(sub, lang, t, defaults));
      assert Untouched(row, lang, types[1..]);
      SavePromptsAddsNone(rows1, types[1..], lang, sub, defaults, row);
      var k :| 0 <= k < |rows1| && rows1[k] == row;
      assert !Matches(rows1[k], lang, t);
    }
  }

  /** After the save loop each saved type has exactly the submitted row. */
  lemma {:induction false} SavePromptsStored(rows: seq<PromptConfig>, types: seq<PromptType>, lang: Language, sub: Submission, defaults: Defaults, t: PromptType)
    requires UniquePrompts(rows)
    requires t in types
    ensures FindPrompt(SavePrompts(rows, types, lang, sub, defaults), lang, t)
         == Some(PromptConfig(lang, t, sub(t).custom, SavedText(sub, lang, t, defaults)))
    decreases |types|
  {
    var t0 := types[0];
    var rows1 := SavePrompt(rows, lang, t0, sub(t0).custom, SavedText(sub, lang, t0, defaults));
    var r := SavePrompts(rows, types, lang, sub, defaults);
    if t in types[1..] {
      SavePromptsStored(rows1, types[1..], lang, sub, defaults, t);
    } else {
      assert t == t0;
      var row := PromptConfig(lang, t, sub(t).custom, SavedText(sub, lang, t, defaults));
      var k :| 0 <= k < |rows1| && rows1[k] == row;
      SavePromptsKeeps(rows1, types[1..], lang, sub, defaults, row);
      var j :| 0 <= j < |r| && r[j] == row;
      FindPromptUnique(r, lang, t, j);
    }
  }

  /** `settings_view`. `langParam` is the `lang` query parameter, `data` the
      cleaned settings form (absent when invalid) and `sub` the prompt form,
      which has no required field. */
  function SettingsView(w: World, verb: Method, langParam: Option<string>, data: Option<SettingsData>, sub: Submission,
                        defaults: Defaults, h: Hasher): (r: Step)
    ensures r.world.store == w.store
    ensures ParseLanguage(langParam.GetOr(GetSolo(w.db).1.language.Code())).Some? && verb == Post && data.Some? ==>
      r == SettingsSaved(w, GetSolo(w.db).1, data.value, sub, defaults, h)
  {
    var (db1, cfg) := GetSolo(w.db);
    var display := langParam.GetOr(cfg.language.Code());
    match ParseLanguage(display)
    // A language without defaults raises before the response is built, so
    // the session is not saved; the configuration row, if created, stays.
    case None => Step(w.(db := db1), ServerError)
    case Some(lang) =>
      if verb == Post && data.Some? then SettingsSaved(w, cfg, data.value, sub, defaults, h)
      else SettingsShown(w.(db := db1), verb, lang, display, cfg, defaults)
  }

  /** A valid POST: both forms saved, the session switched to the new language. */
  function SettingsSaved(w: World, cfg: AppConfig, data: SettingsData, sub: Submission, defaults: Defaults, h: Hasher): (r: Step)
    ensures r.world.store == w.store
  {
    var rows := SavePrompts(w.db.prompts, PromptTypes, data.language, sub, defaults);
    Step(World(ConfigDb(Some(SaveSettings(cfg, data, h)), rows), w.store, w.session.(language := Some(data.language.Code()))),
         Redirect(ToSettings(Some(data.language.Code()))))
  }

  /** The page itself; a rejected POST is shown again without the prompt table. */
  function SettingsShown(w: World, verb: Method, lang: Language, display: string, cfg: AppConfig, defaults: Defaults): (r: Step)
    ensures r.world == w.(session := w.session.(language := Some(display)))
  {
    var shown := if verb == Get then Some(ShownPrompts(w.db.prompts, lang, defaults)) else None;
    Step(w.(session := w.session.(language := Some(display))),
         Render(SettingsPage(display, shown, cfg.simulationPasswordHash != "")))
  }

  /** The gated settings handler. */
  function GatedSettingsView(w: World, verb: Method, langParam: Option<string>, data: Option<SettingsData>, sub: Submission,
                    defaults: Defaults, h: Hasher): (r: Step)
    ensures !w.session.adminLoggedIn ==> r == Step(w, Redirect(ToLogin))
  {
    Gate(w, SettingsView(w, verb, langParam, data, sub, defaults, h))
  }

  /** The settings page shows, for each type, what prompt resolution would
      use in the displayed language: the stored text when custom, otherwise
      the default even if a non-custom row holds other text. */
  lemma ShownIsResolved(w: World, langParam: Option<string>, data: Option<SettingsData>, sub: Submission, defaults: Defaults, h: Hasher, t: PromptType)
    requires w.session.adminLoggedIn
    requires ParseLanguage(langParam.GetOr(GetSolo(w.db).1.language.Code())).Some?
    ensures var r := GatedSettingsView(w, Get, langParam, data, sub, defaults, h);
      var lang := ParseLanguage(langParam.GetOr(GetSolo(w.db).1.language.Code())).value;
      && r.reply.Render? && r.reply.page.SettingsPage? && r.reply.page.prompts.Some?
      && r.reply.page.prompts.value[t].text == ResolvePrompt(w.db.prompts, lang, t, defaults)
      && r.world.session.language == Some(lang.Code())
  {
    PromptTypesComplete(t);
  }

  /** An unknown display language is a server error that changes neither
      the session nor the stored settings. */
  lemma UnknownLanguageFails(w: World, code: string, data: Option<SettingsData>, verb: Method, sub: Submission, defaults: Defaults, h: Hasher)
    requires w.session.adminLoggedIn && w.db.solo.Some?
    requires code != "en" && code != "de"
    ensures GatedSettingsView(w, verb, Some(code), data, sub, defaults, h) == Step(w, ServerError)
  {
  }

  /** After a valid save, each of the five rows of the chosen language holds
      the checkbox and the submitted text when custom, or the default; and
      prompt resolution then yields exactly those texts. */
  lemma SettingsSaveStoresPrompts(w: World, langParam: Option<string>, data: SettingsData, sub: Submission, defaults: Defaults, h: Hasher, t: PromptType)
    requires w.session.adminLoggedIn
    requires UniquePrompts(w.db.prompts)
    requires ParseLanguage(langParam.GetOr(GetSolo(w.db).1.language.Code())).Some?
    ensures var r := GatedSettingsView(w, Post, langParam, Some(data), sub, defaults, h);
      && FindPrompt(r.world.db.prompts, data.language, t)
           == Some(PromptConfig(data.language, t, sub(t).custom, SavedText(sub, data.language, t, defaults)))
      && LoadPrompts(r.world.db, defaults).1[t] == SavedText(sub, data.language, t, defaults)
      && r.world.db.solo == Some(SaveSettings(GetSolo(w.db).1, data, h))
      && r.reply == Redirect(ToSettings(Some(data.language.Code())))
  {
    SettingsPostSaves(w, langParam, data, sub, defaults, h);
    SavedPrompts(w, GetSolo(w.db).1, data, sub, defaults, h, t);
  }

  /** What the save branch stores for one prompt type. */
  lemma SavedPrompts(w: World, cfg: AppConfig, data: SettingsData, sub: Submission, defaults: Defaults, h: Hasher, t: PromptType)
    requires UniquePrompts(w.db.prompts)
    ensures var db := SettingsSaved(w, cfg, data, sub, defaults, h).world.db;
      && FindPrompt(db.prompts, data.language, t)
           == Some(PromptConfig(data.language, t, sub(t).custom, SavedText(sub, data.language, t, defaults)))
      && LoadPrompts(db, defaults).1[t] == SavedText(sub, data.language, t, defaults)
  {
    PromptTypesComplete(t);
    SavePromptsStored(w.db.prompts, PromptTypes, data.language, sub, defaults, t);
  }

  /** A logged-in POST with a known display language and a valid form saves. */
  lemma SettingsPostSaves(w: World, langParam: Option<string>, data: SettingsData, sub: Submission, defaults: Defaults, h: Hasher)
    requires w.session.adminLoggedIn
    requires ParseLanguage(langParam.GetOr(GetSolo(w.db).1.language.Code())).Some?
    ensures GatedSettingsView(w, Post, langParam, Some(data), sub, defaults, h) == SettingsSaved(w, GetSolo(w.db).1, data, sub, defaults, h)
  {
  }

  /** `logout_view`: the flag is removed whatever its value; nothing else changes. */
  function Logout(w: World): (r: Step)
    ensures !r.world.session.adminLoggedIn
    ensures r.world.db == w.db && r.world.store == w.store
    ensures r.world.session.sessionId == w.session.sessionId && r.world.session.language == w.session.language
    ensures r.reply == Redirect(ToIndex)
  {
    Step(w.(session := w.session.(adminLoggedIn := false)), Redirect(ToIndex))
  }

  /** After logout every gated handler redirects to the login page. */
  lemma LogoutLocksSettings(w: World, verb: Method, langParam: Option<string>, data: Option<SettingsData>, sub: Submission, defaults: Defaults, h: Hasher)
    ensures var w1 := Logout(w).world;
      GatedSettingsView(w1, verb, langParam, data, sub, defaults, h) == Step(w1, Redirect(ToLogin))
  {
  }

  /** `sessions_view`: every session id found in any of the three tables. */
  function Sessions(w: World): (r: Step)
    ensures r.world == w
    ensures w.session.adminLoggedIn ==> r.reply == Render(SessionsPage(SessionIds(w.store)))
    ensures !w.session.adminLoggedIn ==> r.reply == Redirect(ToLogin)
  {
    Gate(w, Step(w, Render(SessionsPage(SessionIds(w.store)))))
  }

  /** The listed sessions are exactly those owning some record. */
  lemma SessionsListed(w: World, sid: string)
    requires w.session.adminLoggedIn
    ensures var ids := Sessions(w).reply.page.ids;
      sid in ids <==>
        (|| (exists c :: c in w.store.contexts && c.sessionId == sid)
         || (exists e :: e in w.store.exams && e.sessionId == sid)
         || (exists a :: a in w.store.results && a.sessionId == sid))
  {
  }

  /** The key `test_api_key_view` probes: the posted one when non-empty, else the stored one. */
  function KeyToTest(posted: Option<string>, cfg: AppConfig): (k: string)
    ensures Truthy(posted) ==> k == posted.value
    ensures !Truthy(posted) ==> k == cfg.openaiApiKey
  {
    if Truthy(posted) then posted.value else cfg.openaiApiKey
  }

  /** `test_api_key_view`; `probe` stands for listing the models with a key. */
  function TestApiKey(w: World, posted: Option<string>, probe: string -> bool): (r: Step)
    ensures w.session.adminLoggedIn ==>
      r.reply == Json(probe(KeyToTest(posted, GetSolo(w.db).1))) && r.world == w.(db := GetSolo(w.db).0)
    ensures !w.session.adminLoggedIn ==> r == Step(w, Redirect(ToLogin))
  {
    var (db1, cfg) := GetSolo(w.db);
    Gate(w, Step(w.(db := db1), Json(probe(KeyToTest(posted, cfg)))))
  }

  /** An empty posted key and no posted key both send the stored key to the probe, and a
      non-empty posted key is probed in its place. */
  lemma PostedKeyOverridesStored(w: World, key: string, probe: string -> bool)
    requires w.session.adminLoggedIn
    ensures var stored := GetSolo(w.db).1.openaiApiKey;
      && TestApiKey(w, None, probe).reply == Json(probe(stored))
      && TestApiKey(w, Some(""), probe).reply == Json(probe(stored))
      && (key != "" ==> TestApiKey(w, Some(key), probe).reply == Json(probe(key)))
  {
  }

  /** `cleanup_sessions_view` as written: a POST calls the cleanup command
      with `all=True`, which the command does not accept, so the view raises
      and the request ends in a server error with nothing deleted. */
  function CleanupSessionsAsWritten(w: World, verb: Method, now: int, lifetimeDays: Option<int>, initialised: bool)
    : (r: Step)
    ensures r.world == w
    ensures w.session.adminLoggedIn && verb == Post ==> r.reply == ServerError
    ensures w.session.adminLoggedIn && verb == Get ==> r.reply == Redirect(ToSessions)
  {
    var inner :=
      if verb == Get then Step(w, Redirect(ToSessions))
      else match CallCleanSessions(w.store, {"all"}, now, lifetimeDays, initialised)
        case Failure(_) => Step(w, ServerError)
        case Success(out) => Step(w.(store := out.0), Redirect(ToSessions));
    AllOptionRefused(w.store, now, lifetimeDays, initialised);
    Gate(w, inner)
  }

  /** A logged-in administrator who presses the button gets a server error,
      and every stored record, fresh or stale, is still there. */
  lemma CleanupAsWrittenDeletesNothing(w: World, now: int, lifetimeDays: Option<int>, c: ContextFile)
    requires w.session.adminLoggedIn
    requires c in w.store.contexts && c.uploadTime < Cutoff(now, lifetimeDays)
    ensures var r := CleanupSessionsAsWritten(w, Post, now, lifetimeDays, true);
      r.reply == ServerError && c in r.world.store.contexts
  {
  }

  /** `cleanup_sessions_view` as its description says: a POST deletes every
      session's records and redirects back to the session list. */
  function CleanupSessions(w: World, verb: Method, initialised: bool): (r: Step)
    ensures r.world.db == w.db && r.world.session == w.session
    ensures w.session.adminLoggedIn ==> r.reply == Redirect(ToSessions)
    ensures !w.session.adminLoggedIn || verb == Get ==> r.world == w
    ensures w.session.adminLoggedIn && verb == Post && initialised ==>
      && r.world.store.contexts == [] && r.world.store.exams == [] && r.world.store.results == []
      && r.world.store.nextPk == w.store.nextPk
  {
    var st := if verb == Post then CleanAll(w.store, initialised).0 else w.store;
    Gate(w, Step(w.(store := st), Redirect(ToSessions)))
  }

  /** After the corrected cleanup the session list is empty. */
  lemma CleanupEmptiesSessionList(w: World, initialised: bool, sid: string)
    requires w.session.adminLoggedIn && initialised
    ensures sid !in Sessions(CleanupSessions(w, Post, initialised).world).reply.page.ids
  {
    SessionsListed(CleanupSessions(w, Post, initialised).world, sid);
  }
}

=== FILE: extraction.dfy ===
/** Text extraction from a stored file (`_read_file` in simulator/services.py).
    The parsing libraries are outside the model: a `FileContent` records what
    each of them makes of the file, and the model does the format dispatch and
    the joining exactly as the application does. */
module Extraction {
  import opened Wrappers
  import opened Text
  import opened Paths

  /** What one stored file yields under each reading the application may use. */
  datatype FileContent = FileContent(
    docx: Result<seq<string>, string>,   // paragraph texts, or the parser's exception
    csv: Result<seq<seq<string>>, string>, // rows of cells, or the reader's exception
    pdf: Option<seq<Option<string>>>,    // text of each page (None: the page had none); None if anything raised
    text: Result<string, string>         // the decoded characters before newline translation, or the error `open` raised
  )

  datatype Format = Docx | Csv | Pdf | PlainText

  /** Dispatch on the lower-cased final extension of the path. */
  function FormatOf(path: string): (f: Format)
    ensures f == Docx <==> LowerExt(path) == ".docx"
    ensures f == Csv <==> LowerExt(path) == ".csv"
    ensures f == Pdf <==> LowerExt(path) == ".pdf"
  {
    var ext := LowerExt(path);
    if ext == ".docx" then Docx
    else if ext == ".csv" then Csv
    else if ext == ".pdf" then Pdf
    else PlainText
  }

  /** The paragraphs of a DOCX document, one per line. */
  function DocxText(paragraphs: seq<string>): (t: string)
    ensures |paragraphs| == 0 ==> t == ""
    ensures |paragraphs| > 0 ==> |t| == TotalLength(paragraphs) + |paragraphs| - 1
  {
    Join(paragraphs, "\n")
  }

  /** Each CSV row as its cells joined by commas. */
  function CsvLines(rows: seq<seq<string>>): (lines: seq<string>)
    ensures |lines| == |rows|
    ensures forall i :: 0 <= i < |rows| ==> lines[i] == Join(rows[i], ",")
  {
    seq(|rows|, i requires 0 <= i < |rows| => Join(rows[i], ","))
  }

  function CsvText(rows: seq<seq<string>>): (t: string)
    ensures |rows| == 0 ==> t == ""
    ensures |rows| > 0 ==> |t| == TotalLength(CsvLines(rows)) + |rows| - 1
  {
    Join(CsvLines(rows), "\n")
  }

  /** Page texts, an absent text read as empty. */
  function PageTexts(pages: seq<Option<string>>): (texts: seq<string>)
    ensures |texts| == |pages|
    ensures forall i :: 0 <= i < |pages| ==> texts[i] == pages[i].GetOr("")
  {
    seq(|pages|, i requires 0 <= i < |pages| => pages[i].GetOr(""))
  }

  /** `_read_file(path)`: the DOCX and CSV readers and the plain-text `open`
      propagate their errors; a PDF that cannot be read gives the empty text. */
  function ReadFile(path: string, content: FileContent): (r: Result<string, string>)
    ensures FormatOf(path) == Docx ==>
      r == (if content.docx.Success? then Success(DocxText(content.docx.value)) else Failure(content.docx.error))
    ensures FormatOf(path) == Csv ==>
      r == (if content.csv.Success? then Success(CsvText(content.csv.value)) else Failure(content.csv.error))
    ensures FormatOf(path) == Pdf ==> r.Success?
    ensures FormatOf(path) == Pdf && content.pdf.Some? ==> r.value == Join(PageTexts(content.pdf.value), "\n")
    ensures FormatOf(path) == Pdf && content.pdf.None? ==> r.value == ""
    ensures FormatOf(path) == PlainText ==> (r.Success? <==> content.text.Success?)
    ensures FormatOf(path) == PlainText && r.Failure? ==> r.error == content.text.error
    ensures FormatOf(path) == PlainText && r.Success? ==> r.value == TranslateNewlines(content.text.value)
    ensures FormatOf(path) == PlainText && r.Success? ==>
      '\r' !in r.value && |r.value| <= |content.text.value|
      && ('\r' !in content.text.value ==> r.value == content.text.value)
  {
    match FormatOf(path)
    case Docx =>
      (match content.docx
       case Success(paragraphs) => Success(DocxText(paragraphs))
       case Failure(e) => Failure(e))
    case Csv =>
      (match content.csv
       case Success(rows) => Success(CsvText(rows))
       case Failure(e) => Failure(e))
    case Pdf =>
      (match content.pdf
       case Some(pages) => Success(Join(PageTexts(pages), "\n"))
       case None => Success(""))
    case PlainText =>
      (match content.text
       case Success(chars) =>
         assert '\r' !in chars ==> TranslateNewlines(chars) == chars by {
           if '\r' !in chars {
             TranslateNewlinesIdentity(chars);
           }
         }
         Success(TranslateNewlines(chars))
       case Failure(e) => Failure(e))
  }

  /** A plain-text file written with `"\n"`, `"\r"` or `"\r\n"` line endings
      reads as its lines joined by `"\n"`. */
  lemma PlainTextLineEndings(path: string, content: FileContent, lines: seq<string>, sep: string)
    requires FormatOf(path) == PlainText
    requires content.text == Success(Join(lines, sep))
    requires sep == "\n" || sep == "\r" || sep == "\r\n"
    requires forall k :: 0 <= k < |lines| ==> '\r' !in lines[k] && '\n' !in lines[k]
    ensures ReadFile(path, content) == Success(Join(lines, "\n"))
  {
    TranslateNewlinesJoin(lines, sep);
  }

  /** Two paths whose extensions differ only in letter case are read the same way. */
  lemma ReadFileIgnoresCase(path: string, other: string, content: FileContent)
    requires Lower(Ext(path)) == Lower(Ext(other))
    ensures ReadFile(path, content) == ReadFile(other, content)
  {
  }

  /** Upper-case `.DOCX` takes the DOCX branch. */
  lemma UpperCaseDocx(content: FileContent)
    requires content.docx.Success?
    ensures ReadFile("exam.DOCX", content) == Success(DocxText(content.docx.value))
  {
    assert LowerExt("exam.DOCX") == ".docx" by {
      assert LastIndex("exam.DOCX", '/') == -1 by {
        LastIndexUnique("exam.DOCX", '/', -1);
      }
      assert LastIndex("exam.DOCX", '.') == 4 by {
        LastIndexUnique("exam.DOCX", '.', 4);
      }
      assert !AllDots("exam.DOCX"[0..4]) by {
        assert "exam.DOCX"[0..4][0] == 'e';
      }
      assert Ext("exam.DOCX") == ".DOCX";
    }
  }

  /** The DOCX text can be split back into its paragraphs when no paragraph
      holds a line break. */
  lemma {:induction false} DocxRoundTrip(paragraphs: seq<string>)
    requires |paragraphs| > 0
    requires forall k :: 0 <= k < |paragraphs| ==> '\n' !in paragraphs[k]
    ensures Split(DocxText(paragraphs), '\n') == paragraphs
  {
    SplitJoin(paragraphs, '\n');
  }

  /** Three paragraphs "A", "B", "C" read as "A\nB\nC". */
  lemma DocxThreeParagraphs()
    ensures DocxText(["A", "B", "C"]) == "A\nB\nC"
  {
    assert ["A", "B", "C"][1..] == ["B", "C"];
    assert ["B", "C"][1..] == ["C"];
  }

  /** A CSV file without rows reads as the empty text. */
  lemma CsvNoRows()
    ensures CsvText([]) == ""
  {
  }

  /** The CSV text splits back into its rows and cells when no cell holds a
      comma or a line break and no row is empty. */
  lemma {:induction false} CsvRoundTrip(rows: seq<seq<string>>)
    requires |rows| > 0
    requires forall i :: 0 <= i < |rows| ==> |rows[i]| > 0
    requires forall i, j :: 0 <= i < |rows| && 0 <= j < |rows[i]| ==> ',' !in rows[i][j] && '\n' !in rows[i][j]
    ensures |Split(CsvText(rows), '\n')| == |rows|
    ensures forall i :: 0 <= i < |rows| ==> Split(Split(CsvText(rows), '\n')[i], ',') == rows[i]
  {
    var lines := CsvLines(rows);
    forall i | 0 <= i < |rows|
      ensures '\n' !in lines[i] && Split(lines[i], ',') == rows[i]
    {
      JoinAvoids(rows[i], ",", '\n');
      SplitJoin(rows[i], ',');
    }
    SplitJoin(lines, '\n');
  }

  /** A join avoids a character that neither the parts nor the separator hold. */
  lemma {:induction false} JoinAvoids(parts: seq<string>, sep: string, c: char)
    requires c !in sep
    requires forall k :: 0 <= k < |parts| ==> c !in parts[k]
    ensures c !in Join(parts, sep)
    decreases |parts|
  {
    if |parts| > 1 {
      JoinAvoids(parts[1..], sep, c);
    }
  }
}

=== FILE: generation.dfy ===
/** A generation run (`generate_ai_results` in simulator/services.py): the
    session's prompt is assembled, its earlier results are removed, and one
    answer per level is requested and stored as a one-paragraph document.
    The chat-completion service is an uninterpreted function. */
module Generation {
  import opened Wrappers
  import opened Text
  import opened Seqs
  import opened Records
  import opened Extraction
  import opened Prompt
  import opened Settings

  datatype Role = SystemRole | UserRole
  datatype Message = Message(role: Role, content: string)

  /** The chat-completion call: model name, API key and messages to the
      first choice's content, or the error the client raised. */
  type Backend = (string, string, seq<Message>) -> Result<string, string>

  /** The model used when the `OPENAI_MODEL` setting is absent. */
  const DefaultModel := "gpt-4-1106-preview"

  /** `upload_to` of the result file field. */
  const ResultDir := "ai_results"

  datatype GenerationError =
    | PromptFailed(cause: PromptError)  // `assemble_prompt` raised
    | NoApiKey                          // neither an argument nor the environment gave a key
    | BackendFailed(message: string)    // a completion request raised

  /** `api_key or os.environ.get("OPENAI_API_KEY")`; the client refuses a
      missing key but not an empty one. */
  function ClientKey(apiKey: Option<string>, env: Option<string>): (r: Option<string>)
    ensures Truthy(apiKey) ==> r == apiKey
    ensures !Truthy(apiKey) ==> r == env
  {
    if Truthy(apiKey) then apiKey else env
  }

  /** The prompt type holding a level's instruction. */
  function LevelPrompt(level: Level): (t: PromptType)
    ensures t.Name() == "level_" + level.Name()
  {
    match level
    case Low => LevelLow
    case Medium => LevelMedium
    case High => LevelHigh
  }

  /** The user message: the assembled prompt, a blank line, the base
      instruction, a line break and the level's instruction. */
  function UserContent(basePrompt: string, base: string, instruction: string): (c: string)
    ensures |c| == |basePrompt| + |base| + |instruction| + 3
    ensures c[..|basePrompt|] == basePrompt
    ensures c[|c| - |instruction|..] == instruction
    ensures c[|basePrompt|..|basePrompt| + 2] == "\n\n"
  {
    basePrompt + "\n\n" + base + "\n" + instruction
  }

  /** The two messages sent for one level. */
  function Messages(prompts: map<PromptType, string>, basePrompt: string, level: Level): (m: seq<Message>)
    requires prompts.Keys == AllPromptTypes
    ensures |m| == 2 && m[0] == Message(SystemRole, prompts[System])
    ensures m[1].role == UserRole
    ensures m[1].content == UserContent(basePrompt, prompts[Base], prompts[LevelPrompt(level)])
  {
    [Message(SystemRole, prompts[System]),
     Message(UserRole, UserContent(basePrompt, prompts[Base], prompts[LevelPrompt(level)]))]
  }

  /** The storage name a level's document is saved under. */
  function ResultName(sid: string, level: Level): string
  {
    ResultDir + "/" + sid + "/" + level.Name() + ".docx"
  }

  /** The stored record for one answer: a document whose single paragraph
      is the answer text. */
  function MakeResult(pk: nat, sid: string, level: Level, text: string): (a: AIResult)
    ensures a.level == level && a.sessionId == sid && a.pk == pk
  {
    AIResult(pk, ResultName(sid, level), level, sid, [text])
  }

  /** A stored result reads back, through the DOCX extraction, as its text. */
  lemma ResultReadsBack(pk: nat, sid: string, level: Level, text: string)
    ensures DocxText(MakeResult(pk, sid, level, text).document) == text
  {
  }

  /** `response.choices[0].message.content.strip()`. */
  function Trimmed(answer: Result<string, string>): (r: Result<string, string>)
    ensures r.Success? <==> answer.Success?
    ensures r.Success? ==> r.value == Strip(answer.value)
    ensures r.Failure? ==> r.error == answer.error
  {
    match answer
    case Success(a) => Success(Strip(a))
    case Failure(e) => Failure(e)
  }

  /** The state after a run: the file store and the configuration tables,
      and what the run returned or raised. */
  datatype Outcome = Outcome(store: Store, db: ConfigDb, result: Result<seq<AIResult>, GenerationError>)

  /** The level loop: each level asks for a trimmed answer, and a stored
      result follows each answer, so a failure keeps what earlier levels
      stored. */
  function RunLevels(levels: seq<Level>, st: Store, sid: string, ask: Level -> Result<string, string>): (r: (Store, Result<seq<AIResult>, GenerationError>))
    ensures r.0.contexts == st.contexts && r.0.exams == st.exams
    decreases |levels|
  {
    if |levels| == 0 then (st, Success([]))
    else
      match ask(levels[0])
      case Failure(e) => (st, Failure(BackendFailed(e)))
      case Success(answer) =>
        var a := MakeResult(st.nextPk, sid, levels[0], answer);
        var st1 := st.(results := st.results + [a], nextPk := st.nextPk + 1);
        var (st2, rest) := RunLevels(levels[1..], st1, sid, ask);
        match rest
        case Failure(e) => (st2, Failure(e))
        case Success(more) => (st2, Success([a] + more))
  }

  /** The results stored for the levels answered before the first failure. */
  function Answered(levels: seq<Level>, pk: nat, sid: string, ask: Level -> Result<string, string>): (r: seq<AIResult>)
    ensures |r| <= |levels|
    ensures forall i {:trigger r[i]} :: 0 <= i < |r| ==>
      ask(levels[i]).Success? && r[i] == MakeResult(pk + i, sid, levels[i], ask(levels[i]).value)
    ensures |r| < |levels| ==> ask(levels[|r|]).Failure?
    decreases |levels|
  {
    if |levels| == 0 then []
    else
      match ask(levels[0])
      case Failure(_) => []
      case Success(answer) =>
        var rest := Answered(levels[1..], pk + 1, sid, ask);
        var r := [MakeResult(pk, sid, levels[0], answer)] + rest;
        forall i | 1 <= i < |r|
          ensures r[i] == rest[i - 1] && levels[i] == levels[1..][i - 1]
        {
        }
        r
  }

  /** The loop stores exactly the results of the answered prefix. */
  lemma {:induction false} RunLevelsStore(levels: seq<Level>, st: Store, sid: string, ask: Level -> Result<string, string>)
    ensures var ans := Answered(levels, st.nextPk, sid, ask);
      var r := RunLevels(levels, st, sid, ask).0;
      r.results == st.results + ans && r.nextPk == st.nextPk + |ans|
    decreases |levels|
  {
    if |levels| > 0 && ask(levels[0]).Success? {
      var a := MakeResult(st.nextPk, sid, levels[0], ask(levels[0]).value);
      var st1 := st.(results := st.results + [a], nextPk := st.nextPk + 1);
      RunLevelsStore(levels[1..], st1, sid, ask);
      var more := Answered(levels[1..], st1.nextPk, sid, ask);
      var ans := Answered(levels, st.nextPk, sid, ask);
      assert RunLevels(levels, st, sid, ask).0 == RunLevels(levels[1..], st1, sid, ask).0;
      assert ans == [a] + more;
      assert st.results + [a] + more == st.results + ans;
    }
  }

  /** The loop succeeds, returning the answered prefix, when every level was
      answered, and otherwise reports the first failure. */
  lemma {:induction false} RunLevelsResult(levels: seq<Level>, st: Store, sid: string, ask: Level -> Result<string, string>)
    ensures var ans := Answered(levels, st.nextPk, sid, ask);
      var r := RunLevels(levels, st, sid, ask).1;
      && (r.Success? <==> |ans| == |levels|)
      && (r.Success? ==> r.value == ans)
      && (r.Failure? ==> |ans| < |levels| && r.error == BackendFailed(ask(levels[|ans|]).error))
    decreases |levels|
  {
    if |levels| > 0 && ask(levels[0]).Success? {
      var a := MakeResult(st.nextPk, sid, levels[0], ask(levels[0]).value);
      var st1 := st.(results := st.results + [a], nextPk := st.nextPk + 1);
      RunLevelsResult(levels[1..], st1, sid, ask);
      var more := Answered(levels[1..], st1.nextPk, sid, ask);
      var ans := Answered(levels, st.nextPk, sid, ask);
      assert ans == [a] + more;
      if |more| < |levels[1..]| {
        assert levels[1..][|more|] == levels[|ans|];
      }
    }
  }

  /** The loop stores exactly the answered prefix; it succeeds, returning
      that prefix, when every level was answered, and otherwise reports the
      first failure. */
  lemma RunLevelsAnswered(levels: seq<Level>, st: Store, sid: string, ask: Level -> Result<string, string>)
    ensures var ans := Answered(levels, st.nextPk, sid, ask);
      var r := RunLevels(levels, st, sid, ask);
      && r.0 == st.(results := st.results + ans, nextPk := st.nextPk + |ans|)
      && (r.1.Success? <==> |ans| == |levels|)
      && (r.1.Success? ==> r.1.value == ans)
      && (r.1.Failure? ==> |ans| < |levels| && r.1.error == BackendFailed(ask(levels[|ans|]).error))
  {
    RunLevelsStore(levels, st, sid, ask);
    RunLevelsResult(levels, st, sid, ask);
  }

  /** The request a run sends for one level. */
  function Ask(st: Store, db: ConfigDb, sid: string, fs: FileSystem, apiKey: Option<string>, env: Option<string>,
               modelSetting: Option<string>, defaults: Defaults, backend: Backend, level: Level): Result<string, string>
    requires AssemblePrompt(st, sid, fs).Success? && ClientKey(apiKey, env).Some?
  {
    backend(modelSetting.GetOr(DefaultModel), ClientKey(apiKey, env).value,
            Messages(LoadPrompts(db, defaults).1, AssemblePrompt(st, sid, fs).value, level))
  }

  /** The trimmed answer the run receives for each level. */
  function Asker(st: Store, db: ConfigDb, sid: string, fs: FileSystem, apiKey: Option<string>, env: Option<string>,
                 modelSetting: Option<string>, defaults: Defaults, backend: Backend): Level -> Result<string, string>
    requires AssemblePrompt(st, sid, fs).Success? && ClientKey(apiKey, env).Some?
  {
    (level: Level) => Trimmed(Ask(st, db, sid, fs, apiKey, env, modelSetting, defaults, backend, level))
  }

  /** `generate_ai_results(session_id, api_key=...)`. The environment's key,
      the model setting, the default prompt texts and the backend are
      parameters. */
  function GenerateResults(
    st: Store, db: ConfigDb, sid: string, fs: FileSystem,
    apiKey: Option<string>, env: Option<string>, modelSetting: Option<string>,
    defaults: Defaults, backend: Backend): (o: Outcome)
    ensures o.store.contexts == st.contexts && o.store.exams == st.exams
    ensures AssemblePrompt(st, sid, fs).Failure? ==>
      o == Outcome(st, db, Failure(PromptFailed(AssemblePrompt(st, sid, fs).error)))
    ensures AssemblePrompt(st, sid, fs).Success? && ClientKey(apiKey, env).None? ==>
      o == Outcome(st, db, Failure(NoApiKey))
  {
    match AssemblePrompt(st, sid, fs)
    case Failure(e) => Outcome(st, db, Failure(PromptFailed(e)))
    case Success(basePrompt) =>
      match ClientKey(apiKey, env)
      case None => Outcome(st, db, Failure(NoApiKey))
      case Some(key) =>
        var cleared := st.(results := ResultsExcept(st.results, sid));
        var db1 := LoadPrompts(db, defaults).0;
        var (st1, r) := RunLevels(Levels, cleared, sid, Asker(st, db, sid, fs, apiKey, env, modelSetting, defaults, backend));
        Outcome(st1, db1, r)
  }

  /** A successful run leaves the session with exactly three results, low,
      medium and high in that order, each holding the trimmed answer to its
      own request, under `<level>.docx` in the session's directory; the
      results of other sessions are kept and those of this session replaced. */
  lemma SuccessfulRun(st: Store, db: ConfigDb, sid: string, fs: FileSystem, apiKey: Option<string>, env: Option<string>,
                      modelSetting: Option<string>, defaults: Defaults, backend: Backend)
    requires GenerateResults(st, db, sid, fs, apiKey, env, modelSetting, defaults, backend).result.Success?
    ensures AssemblePrompt(st, sid, fs).Success? && ClientKey(apiKey, env).Some?
    ensures var o := GenerateResults(st, db, sid, fs, apiKey, env, modelSetting, defaults, backend);
      && |o.result.value| == 3
      && (forall i :: 0 <= i < 3 ==>
            var level := Levels[i];
            var ans := Ask(st, db, sid, fs, apiKey, env, modelSetting, defaults, backend, level);
            && ans.Success?
            && o.result.value[i].level == level
            && o.result.value[i].sessionId == sid
            && o.result.value[i].file == ResultName(sid, level)
            && DocxText(o.result.value[i].document) == Strip(ans.value))
      && o.store.results == ResultsExcept(st.results, sid) + o.result.value
      && o.db == LoadPrompts(db, defaults).0
  {
    var cleared := st.(results := ResultsExcept(st.results, sid));
    var ask := Asker(st, db, sid, fs, apiKey, env, modelSetting, defaults, backend);
    RunLevelsAnswered(Levels, cleared, sid, ask);
    var ans := Answered(Levels, cleared.nextPk, sid, ask);
    forall i | 0 <= i < 3
      ensures DocxText(ans[i].document) == Strip(Ask(st, db, sid, fs, apiKey, env, modelSetting, defaults, backend, Levels[i]).value)
    {
      ResultReadsBack(cleared.nextPk + i, sid, Levels[i], ask(Levels[i]).value);
    }
  }

  /** A run that fails at a completion request keeps the results of the
      levels answered before it: the session's old results are gone and the
      new set is incomplete. */
  lemma FailedRequestKeepsEarlierLevels(st: Store, db: ConfigDb, sid: string, fs: FileSystem, apiKey: Option<string>, env: Option<string>,
                                        modelSetting: Option<string>, defaults: Defaults, backend: Backend)
    requires GenerateResults(st, db, sid, fs, apiKey, env, modelSetting, defaults, backend).result.Failure?
    requires GenerateResults(st, db, sid, fs, apiKey, env, modelSetting, defaults, backend).result.error.BackendFailed?
    ensures var o := GenerateResults(st, db, sid, fs, apiKey, env, modelSetting, defaults, backend);
      var kept := ResultsExcept(st.results, sid);
      && |kept| <= |o.store.results| < |kept| + 3
      && o.store.results[..|kept|] == kept
      && (forall i :: |kept| <= i < |o.store.results| ==> o.store.results[i].sessionId == sid)
  {
    var cleared := st.(results := ResultsExcept(st.results, sid));
    var ask := Asker(st, db, sid, fs, apiKey, env, modelSetting, defaults, backend);
    RunLevelsAnswered(Levels, cleared, sid, ask);
    var ans := Answered(Levels, cleared.nextPk, sid, ask);
    assert (cleared.results + ans)[..|cleared.results|] == cleared.results;
  }

  /** A run never touches another session's results. */
  lemma OtherSessionsUntouched(st: Store, db: ConfigDb, sid: string, fs: FileSystem, apiKey: Option<string>, env: Option<string>,
                               modelSetting: Option<string>, defaults: Defaults, backend: Backend, other: string)
    requires other != sid
    ensures ResultsOf(GenerateResults(st, db, sid, fs, apiKey, env, modelSetting, defaults, backend).store, other)
         == ResultsOf(st, other)
  {
    var o := GenerateResults(st, db, sid, fs, apiKey, env, modelSetting, defaults, backend);
    if AssemblePrompt(st, sid, fs).Success? && ClientKey(apiKey, env).Some? {
      var cleared := st.(results := ResultsExcept(st.results, sid));
      var ask := Asker(st, db, sid, fs, apiKey, env, modelSetting, defaults, backend);
      RunLevelsAnswered(Levels, cleared, sid, ask);
      var ans := Answered(Levels, cleared.nextPk, sid, ask);
      ResultsExceptScoped(st.results, sid, other);
      FilterNone(ans, (a: AIResult) => a.sessionId == other);
      FilterConcat(cleared.results, ans, (a: AIResult) => a.sessionId == other);
    }
  }

  /** A run keeps the store invariant. */
  lemma GenerateKeepsValid(st: Store, db: ConfigDb, sid: string, fs: FileSystem, apiKey: Option<string>, env: Option<string>,
                           modelSetting: Option<string>, defaults: Defaults, backend: Backend)
    requires Valid(st) && |sid| <= SessionIdMaxLength
    ensures Valid(GenerateResults(st, db, sid, fs, apiKey, env, modelSetting, defaults, backend).store)
  {
    if AssemblePrompt(st, sid, fs).Success? && ClientKey(apiKey, env).Some? {
      var ask := Asker(st, db, sid, fs, apiKey, env, modelSetting, defaults, backend);
      var ans := Answered(Levels, st.nextPk, sid, ask);
      var out := GenerateResults(st, db, sid, fs, apiKey, env, modelSetting, defaults, backend).store;
      GeneratedStore(st, db, sid, fs, apiKey, env, modelSetting, defaults, backend);
      AnsweredNumbered(Levels, st.nextPk, sid, ask);
      ResultsReplace(st, sid, ans, out);
    }
  }

  /** Past the prompt and the key, the run's store is the old store with the
      session's results replaced by the answered levels. */
  lemma GeneratedStore(st: Store, db: ConfigDb, sid: string, fs: FileSystem, apiKey: Option<string>, env: Option<string>,
                       modelSetting: Option<string>, defaults: Defaults, backend: Backend)
    requires AssemblePrompt(st, sid, fs).Success? && ClientKey(apiKey, env).Some?
    ensures var ans := Answered(Levels, st.nextPk, sid, Asker(st, db, sid, fs, apiKey, env, modelSetting, defaults, backend));
      var out := GenerateResults(st, db, sid, fs, apiKey, env, modelSetting, defaults, backend).store;
      out.results == ResultsExcept(st.results, sid) + ans && out.nextPk == st.nextPk + |ans|
  {
    var cleared := st.(results := ResultsExcept(st.results, sid));
    var ask := Asker(st, db, sid, fs, apiKey, env, modelSetting, defaults, backend);
    RunLevelsAnswered(Levels, cleared, sid, ask);
  }

  /** The answered results are numbered from the given key and belong to the session. */
  lemma AnsweredNumbered(levels: seq<Level>, pk: nat, sid: string, ask: Level -> Result<string, string>)
    ensures var ans := Answered(levels, pk, sid, ask);
      forall i :: 0 <= i < |ans| ==> ans[i].pk == pk + i && ans[i].sessionId == sid
  {
  }

}

=== FILE: http.dfy ===
/** The per-browser session data both apps keep (`request.session`). */
module Http {
  import opened Wrappers

  /** `session_id` (simulator), `admin_logged_in` and `django_language` (config). */
  datatype HttpSession = HttpSession(sessionId: Option<string>, adminLoggedIn: bool, language: Option<string>)

  datatype Method = Get | Post

  const NewSession := HttpSession(None, false, None)

  /** Python truthiness of `request.session.get("session_id")`. */
  predicate HasSessionId(sess: HttpSession)
  {
    sess.sessionId.Some? && sess.sessionId.value != ""
  }
}

=== FILE: paths.dfy ===
/** POSIX path splitting as done by Python's `os.path.splitext` and
    `os.path.basename`, with `/` as separator and `.` as extension separator. */
module Paths {
  import opened Text

  /** `s.rfind(c)`: the index of the last occurrence of `c` in `s`, or -1. */
  function LastIndex(s: string, c: char): (r: int)
    ensures -1 <= r < |s|
    ensures r >= 0 ==> s[r] == c
    ensures forall k :: r < k < |s| ==> s[k] != c
  {
    LastIndexBelow(s, c, |s|)
  }

  /** The last position before `n` holding `c`, or -1. */
  function LastIndexBelow(s: string, c: char, n: nat): (r: int)
    requires n <= |s|
    ensures -1 <= r < n
    ensures r >= 0 ==> s[r] == c
    ensures forall k :: r < k < n ==> s[k] != c
    decreases n
  {
    if n == 0 then -1
    else if s[n - 1] == c then n - 1
    else LastIndexBelow(s, c, n - 1)
  }

  /** The contract of `LastIndex` pins down its value. */
  lemma LastIndexUnique(s: string, c: char, r: int)
    requires -1 <= r < |s|
    requires r >= 0 ==> s[r] == c
    requires forall k :: r < k < |s| ==> s[k] != c
    ensures r == LastIndex(s, c)
  {
  }

  /** The last occurrence in a suffix is the last occurrence in the whole, shifted. */
  lemma LastIndexSuffix(s: string, i: int, c: char)
    requires 0 <= i <= |s|
    ensures LastIndex(s[i..], c) == if LastIndex(s, c) >= i then LastIndex(s, c) - i else -1
  {
    var t := s[i..];
    var r := LastIndex(s, c);
    assert forall k :: 0 <= k < |t| ==> t[k] == s[i + k];
    LastIndexUnique(t, c, if r >= i then r - i else -1);
  }

  predicate AllDots(s: string)
  {
    forall k :: 0 <= k < |s| ==> s[k] == '.'
  }

  /** `os.path.basename(p)`: everything after the last separator. */
  function BaseName(p: string): (r: string)
    ensures '/' !in r
    ensures |r| <= |p| && r == p[|p| - |r|..]
    ensures |r| < |p| ==> p[|p| - |r| - 1] == '/'
  {
    var i := LastIndex(p, '/') + 1;
    assert forall k :: 0 <= k < |p[i..]| ==> p[i..][k] == p[i + k];
    p[i..]
  }

  /** `os.path.splitext(p)`: the extension starts at the last dot of the base
      name, unless everything in the base name before that dot is a dot. */
  function SplitExt(p: string): (string, string)
  {
    var sep := LastIndex(p, '/');
    var dot := LastIndex(p, '.');
    if dot > sep && !AllDots(p[sep + 1..dot]) then (p[..dot], p[dot..])
    else (p, "")
  }

  /** The two parts rejoin to the path. */
  lemma SplitExtRejoins(p: string)
    ensures SplitExt(p).0 + SplitExt(p).1 == p
  {
    var dot := LastIndex(p, '.');
    if SplitExt(p).1 != "" {
      assert p[..dot] + p[dot..] == p;
    }
  }

  /** An extension is one dot followed by neither a dot nor a separator. */
  lemma ExtShape(p: string)
    ensures var e := Ext(p); e == "" || (e[0] == '.' && '.' !in e[1..] && '/' !in e)
  {
    var sep := LastIndex(p, '/');
    var dot := LastIndex(p, '.');
    if Ext(p) != "" {
      ExtensionShape(p, sep, dot);
    }
  }

  /** What follows the last dot holds neither a dot nor a separator. */
  lemma ExtensionShape(p: string, sep: int, dot: int)
    requires sep == LastIndex(p, '/') && dot == LastIndex(p, '.') && dot > sep
    ensures p[dot..][0] == '.' && '.' !in p[dot..][1..] && '/' !in p[dot..]
  {
    var e := p[dot..];
    forall k | 0 <= k < |e|
      ensures e[k] != '/' && (k > 0 ==> e[k] != '.')
    {
      assert e[k] == p[dot + k];
    }
  }

  function Ext(p: string): string
  {
    SplitExt(p).1
  }

  /** A base name has an extension when some dot in it follows a non-dot. */
  predicate HasExtensionDot(b: string)
  {
    exists i, j :: 0 <= j < i < |b| && b[i] == '.' && b[j] != '.'
  }

  /** The extension is non-empty exactly when the base name has a dot that is
      not part of its leading run of dots, and then it runs from the last dot
      of the base name to the end. */
  lemma ExtCharacterized(p: string)
    ensures Ext(p) != "" <==> HasExtensionDot(BaseName(p))
    ensures Ext(p) != "" ==> Ext(p) == BaseName(p)[LastIndex(BaseName(p), '.')..]
  {
    var b := BaseName(p);
    if HasExtensionDot(b) {
      ExtFromDot(p);
    }
    if Ext(p) != "" {
      DotFromExt(p);
    }
  }

  lemma ExtFromDot(p: string)
    requires HasExtensionDot(BaseName(p))
    ensures Ext(p) != ""
  {
    var sep := LastIndex(p, '/');
    var dot := LastIndex(p, '.');
    var off := sep + 1;
    var b := BaseName(p);
    assert b == p[off..];
    var i, j :| 0 <= j < i < |b| && b[i] == '.' && b[j] != '.';
    assert p[off + i] == b[i];
    assert dot >= off + i;
    assert p[off..dot][j] == b[j];
  }

  lemma DotFromExt(p: string)
    requires Ext(p) != ""
    ensures HasExtensionDot(BaseName(p))
    ensures Ext(p) == BaseName(p)[LastIndex(BaseName(p), '.')..]
  {
    var sep := LastIndex(p, '/');
    var dot := LastIndex(p, '.');
    var off := sep + 1;
    var b := BaseName(p);
    assert b == p[off..];
    assert dot > sep && Ext(p) == p[dot..] && !AllDots(p[off..dot]);
    assert LastIndex(b, '.') == dot - off by {
      LastIndexSuffix(p, off, '.');
    }
    assert HasExtensionDot(b) by {
      var mid := p[off..dot];
      var j :| 0 <= j < |mid| && mid[j] != '.';
      assert b[j] == mid[j];
      assert b[dot - off] == '.';
    }
    assert b[dot - off..] == p[dot..];
  }

  /** The extension depends only on the base name. */
  lemma ExtOfBaseName(p: string)
    ensures Ext(p) == Ext(BaseName(p))
  {
    var sep := LastIndex(p, '/');
    var dot := LastIndex(p, '.');
    var off := sep + 1;
    var b := BaseName(p);
    assert b == p[off..];
    assert LastIndex(b, '/') == -1 by {
      LastIndexSuffix(p, off, '/');
    }
    assert LastIndex(b, '.') == (if dot > sep then dot - off else -1) by {
      LastIndexSuffix(p, off, '.');
    }
    if dot > sep {
      assert p[off..dot] == b[..dot - off];
      assert p[dot..] == b[dot - off..];
    }
  }

  /** A name with a dot after a non-dot first character, and no later dot,
      has the extension that starts at that dot. */
  lemma ExtOfPlainName(b: string, i: int)
    requires 0 < i < |b| && '/' !in b && b[0] != '.' && b[i] == '.'
    requires forall k :: i < k < |b| ==> b[k] != '.'
    ensures Ext(b) == b[i..]
  {
    LastIndexUnique(b, '/', -1);
    LastIndexUnique(b, '.', i);
    assert b[0..i][0] != '.';
  }

  /** A name without a dot has no extension. */
  lemma NoDotNoExt(b: string)
    requires '.' !in b
    ensures Ext(b) == ""
  {
    LastIndexUnique(b, '.', -1);
  }

  /** A dot file (dots, then a name without dots) has no extension. */
  lemma DotFileNoExt(b: string)
    requires |b| > 0 && b[0] == '.' && '/' !in b && '.' !in b[1..]
    ensures Ext(b) == ""
  {
    LastIndexUnique(b, '/', -1);
    LastIndexUnique(b, '.', 0);
  }

  /** A file stored under a directory keeps the extension of its own name. */
  lemma ExtUnderDirectory(dir: string, name: string)
    ensures Ext(dir + "/" + name) == Ext(name)
  {
    BaseNameUnderDirectory(dir, name);
    ExtOfBaseName(dir + "/" + name);
    ExtOfBaseName(name);
  }

  /** A directory prefix does not change the base name. */
  lemma BaseNameUnderDirectory(dir: string, name: string)
    ensures BaseName(dir + "/" + name) == BaseName(name)
  {
    var p := dir + "/" + name;
    var n := |dir| + 1;
    var sep := LastIndex(p, '/');
    assert p[|dir|] == '/';
    assert p[n..] == name;
    LastIndexSuffix(p, n, '/');
    if sep >= n {
      assert p[sep + 1..] == name[sep - n + 1..];
    }
  }

  /** `genericpath._splitext` as written: find the last separator and the last
      dot, then skip the leading dots of the base name with a loop. */
  method SplitExtScan(p: string) returns (root: string, ext: string)
    ensures (root, ext) == SplitExt(p)
  {
    var sepIndex := LastIndex(p, '/');
    var dotIndex := LastIndex(p, '.');
    if dotIndex > sepIndex {
      var filenameIndex := sepIndex + 1;
      while filenameIndex < dotIndex
        invariant sepIndex + 1 <= filenameIndex <= dotIndex
        invariant forall k :: sepIndex + 1 <= k < filenameIndex ==> p[k] == '.'
        decreases dotIndex - filenameIndex
      {
        if p[filenameIndex] != '.' {
          assert SplitExt(p) == (p[..dotIndex], p[dotIndex..]) by {
            DotsSlice(p, sepIndex + 1, dotIndex);
          }
          return p[..dotIndex], p[dotIndex..];
        }
        filenameIndex := filenameIndex + 1;
      }
      assert AllDots(p[sepIndex + 1..dotIndex]) by {
        DotsSlice(p, sepIndex + 1, dotIndex);
      }
    }
    assert SplitExt(p) == (p, p[..0]);
    return p, p[..0];
  }

  /** A slice is all dots exactly when each of its positions holds a dot. */
  lemma DotsSlice(p: string, a: int, b: int)
    requires 0 <= a <= b <= |p|
    ensures AllDots(p[a..b]) <==> forall k :: a <= k < b ==> p[k] == '.'
  {
    var mid := p[a..b];
    assert forall k :: 0 <= k < |mid| ==> mid[k] == p[a + k];
    if !AllDots(mid) {
      var j :| 0 <= j < |mid| && mid[j] != '.';
      assert p[a + j] != '.';
    }
  }

  /** The lower-cased extension used by every extension check. */
  function LowerExt(p: string): string
  {
    Lower(Ext(p))
  }

  /** Extension checks ignore letter case. */
  lemma LowerExtIgnoresCase(p: string)
    ensures LowerExt(Lower(p)) == LowerExt(p)
  {
    LowerSplitExt(p);
    LowerIdempotent(Ext(p));
  }

  /** Lower-casing commutes with `splitext`: neither `/` nor `.` is a letter. */
  lemma LowerSplitExt(p: string)
    ensures Ext(Lower(p)) == Lower(Ext(p))
  {
    var lp := Lower(p);
    var sep := LastIndex(p, '/');
    var dot := LastIndex(p, '.');
    assert LastIndex(lp, '/') == sep by {
      LowerKeepsLastIndex(p, '/');
    }
    assert LastIndex(lp, '.') == dot by {
      LowerKeepsLastIndex(p, '.');
    }
    if dot > sep {
      assert AllDots(lp[sep + 1..dot]) <==> AllDots(p[sep + 1..dot]) by {
        LowerSlice(p, sep + 1, dot);
        LowerAllDots(p[sep + 1..dot]);
      }
      if !AllDots(p[sep + 1..dot]) {
        assert Ext(lp) == lp[dot..];
        assert Ext(p) == p[dot..];
        assert lp[dot..] == Lower(p[dot..]) by {
          LowerSlice(p, dot, |p|);
          assert p[dot..|p|] == p[dot..];
          assert lp[dot..|p|] == lp[dot..];
        }
      } else {
        assert Ext(lp) == "" && Ext(p) == "";
      }
    } else {
      assert Ext(lp) == "" && Ext(p) == "";
    }
  }

  lemma LowerSlice(p: string, a: int, b: int)
    requires 0 <= a <= b <= |p|
    ensures Lower(p)[a..b] == Lower(p[a..b])
  {
  }

  lemma LowerAllDots(s: string)
    ensures AllDots(Lower(s)) <==> AllDots(s)
  {
    if !AllDots(s) {
      var k :| 0 <= k < |s| && s[k] != '.';
      assert Lower(s)[k] != '.';
    }
  }

  lemma LowerKeepsLastIndex(p: string, c: char)
    requires c == '/' || c == '.'
    ensures LastIndex(Lower(p), c) == LastIndex(p, c)
  {
    var lp := Lower(p);
    assert forall k :: 0 <= k < |p| ==> (lp[k] == c <==> p[k] == c);
    LastIndexUnique(lp, c, LastIndex(p, c));
  }
}

=== FILE: prompt.dfy ===
/** Prompt assembly (`assemble_prompt` in simulator/services.py): the exam
    text and the context texts of one session in a fixed template, refused
    when the result is longer than the ceiling. */
module Prompt {
  import opened Wrappers
  import opened Text
  import opened Extraction
  import opened Records

  /** `MAX_PROMPT_CHARS`. */
  const MaxPromptChars := 25000

  const ExamHeader := "Exam:\n"
  const ContextHeader := "\n\nAdditional context:\n"
  const ContextSeparator := "\n\n"

  /** The template's own characters. */
  const Boilerplate := 28

  datatype PromptError =
    | NoExam               // "No exam file uploaded"
    | Unreadable(message: string)  // a DOCX or CSV reader, or opening a plain-text file, raised
    | TooLarge             // the composed prompt exceeds the ceiling

  /** What the stored files hold, by path. */
  type FileSystem = string -> FileContent

  /** The template: exam section, then context section. */
  function Compose(exam: string, context: string): (p: string)
    ensures |p| == Boilerplate + |exam| + |context|
    ensures p[..|ExamHeader|] == ExamHeader
    ensures p[|ExamHeader|..|ExamHeader| + |exam|] == exam
    ensures p[|ExamHeader| + |exam|..|ExamHeader| + |exam| + |ContextHeader|] == ContextHeader
    ensures p[|p| - |context|..] == context
  {
    ExamHeader + exam + ContextHeader + context
  }

  /** Both texts can be read back from a prompt once the exam length is known. */
  lemma ComposeInjective(e1: string, c1: string, e2: string, c2: string)
    requires Compose(e1, c1) == Compose(e2, c2) && |e1| == |e2|
    ensures e1 == e2 && c1 == c2
  {
    var p := Compose(e1, c1);
    assert e1 == p[|ExamHeader|..|ExamHeader| + |e1|] == e2;
  }

  /** Reads the files in order, stopping at the first reader that raises. */
  function ReadAll(paths: seq<string>, fs: FileSystem): (r: Result<seq<string>, string>)
    ensures r.Success? <==> forall k :: 0 <= k < |paths| ==> ReadFile(paths[k], fs(paths[k])).Success?
    ensures r.Success? ==> |r.value| == |paths|
    ensures r.Success? ==> forall k :: 0 <= k < |paths| ==> ReadFile(paths[k], fs(paths[k])) == Success(r.value[k])
    ensures r.Failure? ==> exists k :: && 0 <= k < |paths| && ReadFile(paths[k], fs(paths[k])) == Failure(r.error)
                                       && forall j :: 0 <= j < k ==> ReadFile(paths[j], fs(paths[j])).Success?
  {
    ReadEach(paths, (p: string) => ReadFile(p, fs(p)))
  }

  /** `[read(p) for p in paths]` where the first failure propagates. */
  function ReadEach(paths: seq<string>, read: string -> Result<string, string>): (r: Result<seq<string>, string>)
    ensures r.Success? <==> forall k :: 0 <= k < |paths| ==> read(paths[k]).Success?
    ensures r.Success? ==> |r.value| == |paths|
    ensures r.Success? ==> forall k :: 0 <= k < |paths| ==> read(paths[k]) == Success(r.value[k])
    ensures r.Failure? ==> exists k :: && 0 <= k < |paths| && read(paths[k]) == Failure(r.error)
                                       && forall j :: 0 <= j < k ==> read(paths[j]).Success?
    decreases |paths|
  {
    if |paths| == 0 then Success([])
    else
      match read(paths[0])
      case Failure(e) => Failure(e)
      case Success(text) =>
        match ReadEach(paths[1..], read)
        case Failure(e) =>
          assert forall k :: 1 <= k < |paths| ==> paths[1..][k - 1] == paths[k];
          ghost var k :| && 0 <= k < |paths[1..]| && read(paths[1..][k]) == Failure(e)
                         && forall j :: 0 <= j < k ==> read(paths[1..][j]).Success?;
          assert read(paths[k + 1]) == Failure(e);
          assert forall j :: 0 <= j < k + 1 ==> read(paths[j]).Success? by {
            forall j | 0 <= j < k + 1 ensures read(paths[j]).Success? {
              if j > 0 { assert paths[j] == paths[1..][j - 1]; }
            }
          }
          Failure(e)
        case Success(texts) =>
          assert forall k :: 1 <= k < |paths| ==> paths[1..][k - 1] == paths[k];
          Success([text] + texts)
  }

  /** The stored paths of the session's context files, in upload order. */
  function ContextPaths(st: Store, sid: string): (paths: seq<string>)
    ensures |paths| == |ContextsOf(st, sid)|
    ensures forall k :: 0 <= k < |paths| ==> paths[k] == ContextsOf(st, sid)[k].file
  {
    var cs := ContextsOf(st, sid);
    seq(|cs|, k requires 0 <= k < |cs| => cs[k].file)
  }

  /** The size check applied after composition. */
  function Bounded(prompt: string): (r: Result<string, PromptError>)
    ensures r.Success? <==> |prompt| <= MaxPromptChars
    ensures r.Success? ==> r.value == prompt
    ensures r.Failure? ==> r.error == TooLarge
  {
    if |prompt| > MaxPromptChars then Failure(TooLarge) else Success(prompt)
  }

  /** `assemble_prompt(session_id)`. */
  function AssemblePrompt(st: Store, sid: string, fs: FileSystem): (r: Result<string, PromptError>)
    ensures r == Failure(NoExam) <==> FirstExam(st, sid).None?
    ensures r.Success? ==> |r.value| <= MaxPromptChars
  {
    match FirstExam(st, sid)
    case None => Failure(NoExam)
    case Some(exam) =>
      match ReadFile(exam.file, fs(exam.file))
      case Failure(e) => Failure(Unreadable(e))
      case Success(examText) =>
        match ReadAll(ContextPaths(st, sid), fs)
        case Failure(e) => Failure(Unreadable(e))
        case Success(contextTexts) =>
          Bounded(Compose(examText, Join(contextTexts, ContextSeparator)))
  }

  /** The texts a session's files read as, when every reader succeeds. */
  predicate ReadsAs(st: Store, sid: string, fs: FileSystem, examText: string, contextTexts: seq<string>)
  {
    && FirstExam(st, sid).Some?
    && ReadFile(FirstExam(st, sid).value.file, fs(FirstExam(st, sid).value.file)) == Success(examText)
    && ReadAll(ContextPaths(st, sid), fs) == Success(contextTexts)
  }

  /** Once the files are read, the prompt is the template filled with the
      exam text and the context texts separated by blank lines; it is refused
      exactly when the template, the exam and the joined context together
      exceed the ceiling, and a prompt of exactly the ceiling is accepted. */
  lemma {:induction false} AssembledPrompt(st: Store, sid: string, fs: FileSystem, examText: string, contextTexts: seq<string>)
    requires ReadsAs(st, sid, fs, examText, contextTexts)
    ensures var total := Boilerplate + |examText| + |Join(contextTexts, ContextSeparator)|;
      && (AssemblePrompt(st, sid, fs) == Failure(TooLarge) <==> total > MaxPromptChars)
      && (total <= MaxPromptChars ==>
            AssemblePrompt(st, sid, fs) == Success(Compose(examText, Join(contextTexts, ContextSeparator)))
            && |AssemblePrompt(st, sid, fs).value| == total)
  {
  }

  /** With the exam present, a failure is an oversized prompt or a reader
      that raised on the exam or on one of the context files. */
  lemma AssemblyErrors(st: Store, sid: string, fs: FileSystem)
    requires AssemblePrompt(st, sid, fs).Failure?
    requires FirstExam(st, sid).Some?
    ensures var exam := FirstExam(st, sid).value;
      || AssemblePrompt(st, sid, fs).error == TooLarge
      || (&& AssemblePrompt(st, sid, fs).error.Unreadable?
          && (|| ReadFile(exam.file, fs(exam.file)).Failure?
              || exists k :: 0 <= k < |ContextsOf(st, sid)|
                   && ReadFile(ContextsOf(st, sid)[k].file, fs(ContextsOf(st, sid)[k].file)).Failure?))
  {
  }

  /** 24000 characters of exam and 2000 of context do not fit. */
  lemma OversizedScenario(st: Store, sid: string, fs: FileSystem, examText: string, contextTexts: seq<string>)
    requires ReadsAs(st, sid, fs, examText, contextTexts)
    requires |examText| == 24000 && |Join(contextTexts, ContextSeparator)| == 2000
    ensures AssemblePrompt(st, sid, fs) == Failure(TooLarge)
  {
    AssembledPrompt(st, sid, fs, examText, contextTexts);
  }

  /** A missing exam is reported before any file is read. */
  lemma NoExamNoPrompt(st: Store, sid: string, fs: FileSystem)
    requires forall e :: e in st.exams ==> e.sessionId != sid
    ensures AssemblePrompt(st, sid, fs) == Failure(NoExam)
  {
  }
}

=== FILE: records.dfy ===
/** The simulator's database records (simulator/models.py) and the store that
    holds them. Each table is kept in primary-key order, which is the order in
    which rows were created and the order `.first()` uses. A filter without
    `order_by` has no order the database promises; the model reads it in
    this order too. */
module Records {
  import opened Wrappers
  import opened Seqs

  /** `AIResult.LEVEL_CHOICES`. */
  datatype Level = Low | Medium | High {
    function Name(): (s: string)
      ensures s in LevelChoices && |s| <= LevelMaxLength
    {
      match this
      case Low => "low"
      case Medium => "medium"
      case High => "high"
    }
  }

  const LevelChoices: set<string> := {"low", "medium", "high"}
  const LevelMaxLength := 10

  /** The levels in the order a generation run processes them. */
  const Levels: seq<Level> := [Low, Medium, High]

  /** `CharField(max_length=40)` on every record's session id. */
  const SessionIdMaxLength := 40

  /** `uuid.uuid4().hex`: 32 lower-case hexadecimal digits. */
  predicate IsHexId(s: string)
  {
    |s| == 32 && forall k :: 0 <= k < |s| ==> s[k] in "0123456789abcdef"
  }

  type HexId = s: string | IsHexId(s)
    witness "00000000000000000000000000000000"

  /** Upload time is a timestamp in seconds. */
  datatype ContextFile = ContextFile(pk: nat, file: string, uploadTime: int, sessionId: string)
  datatype ExamFile = ExamFile(pk: nat, file: string, uploadTime: int, sessionId: string)
  /** A generated answer; `document` is the paragraph list of its stored file. */
  datatype AIResult = AIResult(pk: nat, file: string, level: Level, sessionId: string, document: seq<string>)

  datatype Store = Store(
    contexts: seq<ContextFile>,
    exams: seq<ExamFile>,
    results: seq<AIResult>,
    nextPk: nat)

  const EmptyStore := Store([], [], [], 0)

  predicate ContextsWellFormed(cs: seq<ContextFile>, nextPk: nat)
  {
    && (forall i, j :: 0 <= i < j < |cs| ==> cs[i].pk < cs[j].pk)
    && (forall i :: 0 <= i < |cs| ==> cs[i].pk < nextPk && |cs[i].sessionId| <= SessionIdMaxLength)
  }

  predicate ExamsWellFormed(es: seq<ExamFile>, nextPk: nat)
  {
    && (forall i, j :: 0 <= i < j < |es| ==> es[i].pk < es[j].pk)
    && (forall i :: 0 <= i < |es| ==> es[i].pk < nextPk && |es[i].sessionId| <= SessionIdMaxLength)
  }

  predicate ResultsWellFormed(rs: seq<AIResult>, nextPk: nat)
  {
    && (forall i, j :: 0 <= i < j < |rs| ==> rs[i].pk < rs[j].pk)
    && (forall i :: 0 <= i < |rs| ==> rs[i].pk < nextPk && |rs[i].sessionId| <= SessionIdMaxLength)
  }

  /** No session holds two exam files. */
  predicate OneExamPerSession(es: seq<ExamFile>)
  {
    forall i, j :: 0 <= i < j < |es| ==> es[i].sessionId != es[j].sessionId
  }

  /** The store invariant: primary keys increase in each table and are below
      the next key to hand out, session ids fit their column, and a session
      has at most one exam. */
  predicate Valid(st: Store)
  {
    && ContextsWellFormed(st.contexts, st.nextPk)
    && ExamsWellFormed(st.exams, st.nextPk)
    && ResultsWellFormed(st.results, st.nextPk)
    && OneExamPerSession(st.exams)
  }

  function ContextsOf(st: Store, sid: string): (r: seq<ContextFile>)
    ensures forall k :: 0 <= k < |r| ==> r[k].sessionId == sid && r[k] in st.contexts
    ensures forall c :: c in st.contexts && c.sessionId == sid ==> c in r
  {
    Filter(st.contexts, (c: ContextFile) => c.sessionId == sid)
  }

  function ExamsOf(st: Store, sid: string): (r: seq<ExamFile>)
    ensures forall k :: 0 <= k < |r| ==> r[k].sessionId == sid && r[k] in st.exams
    ensures forall e :: e in st.exams && e.sessionId == sid ==> e in r
  {
    Filter(st.exams, (e: ExamFile) => e.sessionId == sid)
  }

  function ResultsOf(st: Store, sid: string): (r: seq<AIResult>)
    ensures forall k :: 0 <= k < |r| ==> r[k].sessionId == sid && r[k] in st.results
    ensures forall a :: a in st.results && a.sessionId == sid ==> a in r
  {
    Filter(st.results, (a: AIResult) => a.sessionId == sid)
  }

  /** `ExamFile.objects.filter(session_id=sid).first()`. */
  function FirstExam(st: Store, sid: string): (r: Option<ExamFile>)
    ensures r.None? <==> (forall e :: e in st.exams ==> e.sessionId != sid)
    ensures r.Some? ==> r.value in st.exams && r.value.sessionId == sid
  {
    var es := ExamsOf(st, sid);
    if |es| == 0 then None else Some(es[0])
  }

  /** In a valid store a session's exams are at most one, so `.first()` is
      the only one. */
  lemma OnlyExam(st: Store, sid: string)
    requires Valid(st)
    ensures |ExamsOf(st, sid)| <= 1
    ensures ExamsOf(st, sid) == (if FirstExam(st, sid).Some? then [FirstExam(st, sid).value] else [])
  {
    AtMostOneExam(st.exams, sid);
  }

  /** With distinct session ids, selecting one session keeps at most one exam. */
  lemma {:induction false} AtMostOneExam(es: seq<ExamFile>, sid: string)
    requires OneExamPerSession(es)
    ensures |Filter(es, (e: ExamFile) => e.sessionId == sid)| <= 1
    decreases |es|
  {
    if |es| > 0 {
      var init := es[..|es| - 1];
      var last := es[|es| - 1];
      assert forall i, j :: 0 <= i < j < |init| ==> init[i] == es[i] && init[j] == es[j];
      if last.sessionId == sid {
        forall k | 0 <= k < |init|
          ensures init[k].sessionId != sid
        {
          assert init[k] == es[k];
        }
        FilterNone(init, (e: ExamFile) => e.sessionId == sid);
      } else {
        AtMostOneExam(init, sid);
      }
    }
  }

  /** The session ids that occur in any table. */
  function SessionIds(st: Store): (ids: set<string>)
    ensures forall c :: c in st.contexts ==> c.sessionId in ids
    ensures forall e :: e in st.exams ==> e.sessionId in ids
    ensures forall a :: a in st.results ==> a.sessionId in ids
    ensures forall sid :: sid in ids ==>
      (exists c :: c in st.contexts && c.sessionId == sid)
      || (exists e :: e in st.exams && e.sessionId == sid)
      || (exists a :: a in st.results && a.sessionId == sid)
  {
    (set c | c in st.contexts :: c.sessionId)
    + (set e | e in st.exams :: e.sessionId)
    + (set a | a in st.results :: a.sessionId)
  }

  /** A new context record with the next key and a fitting session id keeps the table well formed. */
  lemma ContextsAppend(cs: seq<ContextFile>, n: nat, c: ContextFile)
    requires ContextsWellFormed(cs, n)
    requires c.pk == n && |c.sessionId| <= SessionIdMaxLength
    ensures ContextsWellFormed(cs + [c], n + 1)
  {
  }

  /** Raising the next key keeps every table well formed. */
  lemma WellFormedRaise(st: Store, m: nat)
    requires Valid(st) && st.nextPk <= m
    ensures ContextsWellFormed(st.contexts, m) && ExamsWellFormed(st.exams, m) && ResultsWellFormed(st.results, m)
  {
  }

  /** A new exam record with the next key and a fitting session id keeps the table well formed. */
  lemma ExamsAppend(es: seq<ExamFile>, n: nat, e: ExamFile)
    requires ExamsWellFormed(es, n)
    requires e.pk == n && |e.sessionId| <= SessionIdMaxLength
    ensures ExamsWellFormed(es + [e], n + 1)
  {
  }

  /** Dropping context records keeps the table well formed. */
  lemma ContextsFilter(cs: seq<ContextFile>, n: nat, p: ContextFile -> bool)
    requires ContextsWellFormed(cs, n)
    ensures ContextsWellFormed(Filter(cs, p), n)
  {
    FilterOrdered(cs, p, (a: ContextFile, b: ContextFile) => a.pk < b.pk);
    var r := Filter(cs, p);
    forall i | 0 <= i < |r|
      ensures r[i].pk < n && |r[i].sessionId| <= SessionIdMaxLength
    {
      assert r[i] in cs;
    }
  }

  /** Dropping exam records keeps the table well formed and one exam per session. */
  lemma ExamsFilter(es: seq<ExamFile>, n: nat, p: ExamFile -> bool)
    requires ExamsWellFormed(es, n) && OneExamPerSession(es)
    ensures ExamsWellFormed(Filter(es, p), n) && OneExamPerSession(Filter(es, p))
  {
    FilterOrdered(es, p, (a: ExamFile, b: ExamFile) => a.pk < b.pk);
    FilterOrdered(es, p, (a: ExamFile, b: ExamFile) => a.sessionId != b.sessionId);
    var r := Filter(es, p);
    forall i | 0 <= i < |r|
      ensures r[i].pk < n && |r[i].sessionId| <= SessionIdMaxLength
    {
      assert r[i] in es;
    }
  }

  /** Primary keys identify a row: in a well-formed table only one position holds a key. */
  lemma ContextKeyUnique(cs: seq<ContextFile>, n: nat, k: int, j: int)
    requires ContextsWellFormed(cs, n)
    requires 0 <= k < |cs| && 0 <= j < |cs| && j != k
    ensures cs[j].pk != cs[k].pk
  {
    if j < k {
      assert cs[j].pk < cs[k].pk;
    } else {
      assert cs[k].pk < cs[j].pk;
    }
  }

  lemma ExamKeyUnique(es: seq<ExamFile>, n: nat, k: int, j: int)
    requires ExamsWellFormed(es, n)
    requires 0 <= k < |es| && 0 <= j < |es| && j != k
    ensures es[j].pk != es[k].pk
  {
    if j < k {
      assert es[j].pk < es[k].pk;
    } else {
      assert es[k].pk < es[j].pk;
    }
  }

  /** `ExamFile.objects.filter(session_id=sid).delete()`: the exams of other sessions. */
  function ExamsExcept(es: seq<ExamFile>, sid: string): (r: seq<ExamFile>)
    ensures forall k :: 0 <= k < |r| ==> r[k].sessionId != sid && r[k] in es
    ensures forall e :: e in es && e.sessionId != sid ==> e in r
  {
    Filter(es, (e: ExamFile) => e.sessionId != sid)
  }

  /** Replacing a session's exams by one new record with the next key keeps
      the exam table well formed with one exam per session. */
  lemma ExamsReplace(es: seq<ExamFile>, n: nat, e: ExamFile)
    requires ExamsWellFormed(es, n) && OneExamPerSession(es)
    requires e.pk == n && |e.sessionId| <= SessionIdMaxLength
    ensures ExamsWellFormed(ExamsExcept(es, e.sessionId) + [e], n + 1)
    ensures OneExamPerSession(ExamsExcept(es, e.sessionId) + [e])
  {
    var kept := ExamsExcept(es, e.sessionId);
    ExamsFilter(es, n, (x: ExamFile) => x.sessionId != e.sessionId);
    ExamsAppend(kept, n, e);
  }

  /** After replacing a session's exams by `e`, that session's exams are
      exactly `e` and every other session's exams are as before. */
  lemma ExamsReplaceScoped(st: Store, e: ExamFile, st1: Store, other: string)
    requires st1.exams == ExamsExcept(st.exams, e.sessionId) + [e]
    requires other != e.sessionId
    ensures ExamsOf(st1, e.sessionId) == [e]
    ensures ExamsOf(st1, other) == ExamsOf(st, other)
  {
    var sid := e.sessionId;
    var kept := ExamsExcept(st.exams, sid);
    FilterAppend(kept, e, (x: ExamFile) => x.sessionId == sid);
    FilterNone(kept, (x: ExamFile) => x.sessionId == sid);
    FilterAppend(kept, e, (x: ExamFile) => x.sessionId == other);
    FilterNested(st.exams, (x: ExamFile) => x.sessionId != sid, (x: ExamFile) => x.sessionId == other);
  }

  /** `AIResult.objects.filter(session_id=sid)` deleted: the results of other sessions. */
  function ResultsExcept(rs: seq<AIResult>, sid: string): (r: seq<AIResult>)
    ensures forall k :: 0 <= k < |r| ==> r[k].sessionId != sid && r[k] in rs
    ensures forall a :: a in rs && a.sessionId != sid ==> a in r
  {
    Filter(rs, (a: AIResult) => a.sessionId != sid)
  }

  /** Appending results numbered from the next key keeps the table well formed. */
  lemma ResultsAppendNumbered(rs: seq<AIResult>, n: nat, more: seq<AIResult>)
    requires ResultsWellFormed(rs, n)
    requires forall i :: 0 <= i < |more| ==> more[i].pk == n + i && |more[i].sessionId| <= SessionIdMaxLength
    ensures ResultsWellFormed(rs + more, n + |more|)
  {
    var all := rs + more;
    forall i, j | 0 <= i < j < |all| ensures all[i].pk < all[j].pk {
      if j >= |rs| {
        assert all[j] == more[j - |rs|];
        if i < |rs| { assert all[i] == rs[i]; } else { assert all[i] == more[i - |rs|]; }
      }
    }
    forall i | 0 <= i < |all| ensures all[i].pk < n + |more| && |all[i].sessionId| <= SessionIdMaxLength {
      if i < |rs| { assert all[i] == rs[i]; } else { assert all[i] == more[i - |rs|]; }
    }
  }

  /** Replacing a session's results by new ones numbered from the next key
      keeps the store invariant: `out` is `st` with that replacement made. */
  lemma ResultsReplace(st: Store, sid: string, more: seq<AIResult>, out: Store)
    requires Valid(st)
    requires forall i :: 0 <= i < |more| ==> more[i].pk == st.nextPk + i && more[i].sessionId == sid
    requires |sid| <= SessionIdMaxLength
    requires out.contexts == st.contexts && out.exams == st.exams
    requires out.results == ResultsExcept(st.results, sid) + more && out.nextPk == st.nextPk + |more|
    ensures Valid(out)
  {
    WellFormedRaise(st, st.nextPk + |more|);
    ResultsFilter(st.results, st.nextPk, (a: AIResult) => a.sessionId != sid);
    ResultsAppendNumbered(ResultsExcept(st.results, sid), st.nextPk, more);
  }

  /** Dropping results keeps the result table well formed. */
  lemma ResultsFilter(rs: seq<AIResult>, n: nat, p: AIResult -> bool)
    requires ResultsWellFormed(rs, n)
    ensures ResultsWellFormed(Filter(rs, p), n)
  {
    FilterOrdered(rs, p, (a: AIResult, b: AIResult) => a.pk < b.pk);
    var r := Filter(rs, p);
    forall i | 0 <= i < |r|
      ensures r[i].pk < n && |r[i].sessionId| <= SessionIdMaxLength
    {
      assert r[i] in rs;
    }
  }

  /** Other sessions' results survive the deletion of one session's results. */
  lemma ResultsExceptScoped(rs: seq<AIResult>, sid: string, other: string)
    requires other != sid
    ensures Filter(ResultsExcept(rs, sid), (a: AIResult) => a.sessionId == other)
         == Filter(rs, (a: AIResult) => a.sessionId == other)
  {
    FilterNested(rs, (a: AIResult) => a.sessionId != sid, (a: AIResult) => a.sessionId == other);
  }
}

=== FILE: seqs.dfy ===
/** Order-preserving selection from a sequence: the rows a query set filtered
    on one column returns, taken in the order of the table's sequence. */
module Seqs {

  function Filter<T>(xs: seq<T>, p: T -> bool): (r: seq<T>)
    ensures |r| <= |xs|
    ensures forall k :: 0 <= k < |r| ==> p(r[k]) && r[k] in xs
    ensures forall k :: 0 <= k < |xs| && p(xs[k]) ==> xs[k] in r
    decreases |xs|
  {
    if |xs| == 0 then []
    else
      var rest := Filter(xs[..|xs| - 1], p);
      assert xs == xs[..|xs| - 1] + [xs[|xs| - 1]];
      if p(xs[|xs| - 1]) then rest + [xs[|xs| - 1]] else rest
  }

  /** Filtering an extended sequence filters the old part and tests the new element. */
  lemma FilterAppend<T>(xs: seq<T>, x: T, p: T -> bool)
    ensures Filter(xs + [x], p) == Filter(xs, p) + (if p(x) then [x] else [])
  {
    assert (xs + [x])[..|xs + [x]| - 1] == xs;
  }

  /** Filtering keeps a sequence whose every element passes. */
  lemma {:induction false} FilterKeepsAll<T>(xs: seq<T>, p: T -> bool)
    requires forall k :: 0 <= k < |xs| ==> p(xs[k])
    ensures Filter(xs, p) == xs
    decreases |xs|
  {
    if |xs| > 0 {
      FilterKeepsAll(xs[..|xs| - 1], p);
      assert xs == xs[..|xs| - 1] + [xs[|xs| - 1]];
    }
  }

  /** Filtering preserves a relative order of the elements. */
  lemma {:induction false} FilterOrdered<T>(xs: seq<T>, p: T -> bool, before: (T, T) -> bool)
    requires forall i, j :: 0 <= i < j < |xs| ==> before(xs[i], xs[j])
    ensures forall i, j :: 0 <= i < j < |Filter(xs, p)| ==> before(Filter(xs, p)[i], Filter(xs, p)[j])
    decreases |xs|
  {
    if |xs| > 0 {
      var init := xs[..|xs| - 1];
      var last := xs[|xs| - 1];
      FilterOrdered(init, p, before);
      var r := Filter(xs, p);
      var ri := Filter(init, p);
      if p(last) {
        assert r == ri + [last];
        forall i, j | 0 <= i < j < |r|
          ensures before(r[i], r[j])
        {
          if j == |r| - 1 {
            assert r[i] in init;
            var k :| 0 <= k < |init| && init[k] == r[i];
            assert xs[k] == r[i] && xs[|xs| - 1] == last;
          }
        }
      }
    }
  }

  /** Filtering with a predicate no element meets leaves nothing. */
  lemma FilterNone<T>(xs: seq<T>, p: T -> bool)
    requires forall k :: 0 <= k < |xs| ==> !p(xs[k])
    ensures Filter(xs, p) == []
  {
  }

  /** Filtering by `q` after filtering by `p` is filtering by `q` alone when
      `q` implies `p`. */
  lemma {:induction false} FilterNested<T>(xs: seq<T>, p: T -> bool, q: T -> bool)
    requires forall k :: 0 <= k < |xs| && q(xs[k]) ==> p(xs[k])
    ensures Filter(Filter(xs, p), q) == Filter(xs, q)
    decreases |xs|
  {
    if |xs| > 0 {
      var init := xs[..|xs| - 1];
      var last := xs[|xs| - 1];
      assert xs == init + [last];
      FilterNested(init, p, q);
      FilterAppend(init, last, p);
      FilterAppend(init, last, q);
      FilterAppend(Filter(init, p), last, q);
    }
  }

  /** When exactly one position fails `p`, filtering drops just that element. */
  lemma {:induction false} FilterDropsOne<T>(xs: seq<T>, p: T -> bool, k: int)
    requires 0 <= k < |xs| && !p(xs[k])
    requires forall j :: 0 <= j < |xs| && j != k ==> p(xs[j])
    ensures multiset(Filter(xs, p)) + multiset{xs[k]} == multiset(xs)
    decreases |xs|
  {
    var init := xs[..|xs| - 1];
    var last := xs[|xs| - 1];
    assert xs == init + [last];
    FilterAppend(init, last, p);
    if k == |xs| - 1 {
      FilterKeepsAll(init, p);
    } else {
      FilterDropsOne(init, p, k);
    }
  }

  /** Filtering distributes over concatenation. */
  lemma {:induction false} FilterConcat<T>(xs: seq<T>, ys: seq<T>, p: T -> bool)
    ensures Filter(xs + ys, p) == Filter(xs, p) + Filter(ys, p)
    decreases |ys|
  {
    if |ys| == 0 {
      assert xs + ys == xs;
    } else {
      var init := ys[..|ys| - 1];
      var last := ys[|ys| - 1];
      assert ys == init + [last];
      assert xs + ys == (xs + init) + [last];
      FilterConcat(xs, init, p);
      FilterAppend(xs + init, last, p);
      FilterAppend(init, last, p);
    }
  }
}

=== FILE: settings_model.dfy ===
/** The configuration app's records (config/models.py) and prompt resolution
    (config/utils.py). Password hashing is an abstract make/check pair; the
    default prompt texts are an abstract total map over language and type. */
module Settings {
  import opened Wrappers

  /** `AppConfig.language` choices. */
  datatype Language = En | De {
    function Code(): string
    {
      match this
      case En => "en"
      case De => "de"
    }
  }

  /** Reads a language code; only the two configured languages exist. */
  function ParseLanguage(code: string): (r: Option<Language>)
    ensures r.Some? ==> r.value.Code() == code
    ensures r.None? ==> code != "en" && code != "de"
  {
    if code == "en" then Some(En) else if code == "de" then Some(De) else None
  }

  /** `PromptConfig.PROMPT_TYPES`. */
  datatype PromptType = System | Base | LevelLow | LevelMedium | LevelHigh {
    function Name(): string
    {
      match this
      case System => "system"
      case Base => "base"
      case LevelLow => "level_low"
      case LevelMedium => "level_medium"
      case LevelHigh => "level_high"
    }
  }

  /** The prompt types in the order the application walks them. */
  const PromptTypes: seq<PromptType> := [System, Base, LevelLow, LevelMedium, LevelHigh]
  const AllPromptTypes: set<PromptType> := {System, Base, LevelLow, LevelMedium, LevelHigh}

  lemma PromptTypesComplete(t: PromptType)
    ensures t in PromptTypes && t in AllPromptTypes
  {
  }

  /** `PROMPT_DEFAULTS[language][prompt_type]`. */
  type Defaults = (Language, PromptType) -> string

  /** Django's `make_password` and `check_password`. */
  datatype Hasher = Hasher(make: string -> string, check: (string, string) -> bool)

  /** A password checks against its own hash. */
  ghost predicate Sound(h: Hasher)
  {
    forall p :: h.check(p, h.make(p))
  }

  datatype AppConfig = AppConfig(
    adminPasswordHash: string,
    openaiApiKey: string,
    simulationPasswordHash: string,
    language: Language,
    setupComplete: bool)

  /** A freshly created row: empty text fields, English, setup not done. */
  const DefaultConfig := AppConfig("", "", "", En, false)

  datatype PromptConfig = PromptConfig(language: Language, promptType: PromptType, isCustom: bool, text: string)

  /** The configuration tables: the singleton row with pk 1, if created, and the prompt rows. */
  datatype ConfigDb = ConfigDb(solo: Option<AppConfig>, prompts: seq<PromptConfig>)

  /** `AppConfig.get_solo()`: the pk 1 row, created with defaults on first use. */
  function GetSolo(db: ConfigDb): (r: (ConfigDb, AppConfig))
    ensures r.0.solo == Some(r.1) && r.0.prompts == db.prompts
    ensures db.solo.Some? ==> r.0 == db
    ensures db.solo.None? ==> r.1 == DefaultConfig
  {
    match db.solo
    case Some(cfg) => (db, cfg)
    case None => (db.(solo := Some(DefaultConfig)), DefaultConfig)
  }

  /** A second call returns the same row and creates nothing. */
  lemma GetSoloIdempotent(db: ConfigDb)
    ensures GetSolo(GetSolo(db).0) == GetSolo(db)
  {
  }

  function SetAdminPassword(cfg: AppConfig, raw: string, h: Hasher): (r: AppConfig)
    ensures r.(adminPasswordHash := cfg.adminPasswordHash) == cfg
  {
    cfg.(adminPasswordHash := h.make(raw))
  }

  function CheckAdminPassword(cfg: AppConfig, raw: string, h: Hasher): (ok: bool)
    ensures Sound(h) && cfg.adminPasswordHash == h.make(raw) ==> ok
  {
    h.check(raw, cfg.adminPasswordHash)
  }

  /** Python truthiness of an optional string. */
  predicate Truthy(s: Option<string>)
  {
    s.Some? && s.value != ""
  }

  /** `set_simulation_password`: an empty or missing password clears the hash. */
  function SetSimulationPassword(cfg: AppConfig, raw: Option<string>, h: Hasher): (r: AppConfig)
    ensures r.(simulationPasswordHash := cfg.simulationPasswordHash) == cfg
    ensures !Truthy(raw) ==> r.simulationPasswordHash == ""
  {
    cfg.(simulationPasswordHash := if Truthy(raw) then h.make(raw.value) else "")
  }

  /** `check_simulation_password`: no hash means open access. */
  function CheckSimulationPassword(cfg: AppConfig, raw: string, h: Hasher): (ok: bool)
    ensures cfg.simulationPasswordHash == "" ==> ok
  {
    if cfg.simulationPasswordHash == "" then true else h.check(raw, cfg.simulationPasswordHash)
  }

  /** After setting an admin password, that password is accepted. */
  lemma AdminPasswordRoundTrip(cfg: AppConfig, p: string, h: Hasher)
    requires Sound(h)
    ensures CheckAdminPassword(SetAdminPassword(cfg, p, h), p, h)
  {
  }

  /** After setting a simulation password, that password is accepted. */
  lemma SimulationPasswordRoundTrip(cfg: AppConfig, p: string, h: Hasher)
    requires Sound(h)
    ensures CheckSimulationPassword(SetSimulationPassword(cfg, Some(p), h), p, h)
  {
  }

  /** Clearing the simulation password opens the simulation to any input. */
  lemma ClearedSimulationPasswordAdmitsAll(cfg: AppConfig, raw: Option<string>, h: Hasher, attempt: string)
    requires !Truthy(raw)
    ensures CheckSimulationPassword(SetSimulationPassword(cfg, raw, h), attempt, h)
  {
  }

  /** `unique_together = ("language", "prompt_type")`. */
  predicate UniquePrompts(rows: seq<PromptConfig>)
  {
    forall i, j :: 0 <= i < j < |rows| ==>
      rows[i].language != rows[j].language || rows[i].promptType != rows[j].promptType
  }

  predicate Matches(row: PromptConfig, lang: Language, t: PromptType)
  {
    row.language == lang && row.promptType == t
  }

  /** Index of the first row for (lang, t), or -1. */
  function FindIndex(rows: seq<PromptConfig>, lang: Language, t: PromptType): (i: int)
    ensures -1 <= i < |rows|
    ensures i >= 0 ==> Matches(rows[i], lang, t)
    ensures forall k :: 0 <= k < |rows| && (i < 0 || k < i) ==> !Matches(rows[k], lang, t)
    decreases |rows|
  {
    if |rows| == 0 then -1
    else if Matches(rows[0], lang, t) then 0
    else
      var i := FindIndex(rows[1..], lang, t);
      if i < 0 then -1 else i + 1
  }

  /** `PromptConfig.objects.filter(language=..., prompt_type=...).first()`. */
  function FindPrompt(rows: seq<PromptConfig>, lang: Language, t: PromptType): (r: Option<PromptConfig>)
    ensures r.Some? ==> r.value in rows && Matches(r.value, lang, t)
    ensures r.None? <==> forall k :: 0 <= k < |rows| ==> !Matches(rows[k], lang, t)
  {
    var i := FindIndex(rows, lang, t);
    if i < 0 then None else Some(rows[i])
  }

  /** With unique rows, the row found is the row for (lang, t). */
  lemma FindPromptUnique(rows: seq<PromptConfig>, lang: Language, t: PromptType, k: int)
    requires UniquePrompts(rows)
    requires 0 <= k < |rows| && Matches(rows[k], lang, t)
    ensures FindPrompt(rows, lang, t) == Some(rows[k])
  {
  }

  /** Custom text if the row says so, else the default for the language. */
  function ResolvePrompt(rows: seq<PromptConfig>, lang: Language, t: PromptType, defaults: Defaults): (r: string)
    ensures || r == defaults(lang, t)
            || exists k :: 0 <= k < |rows| && Matches(rows[k], lang, t) && rows[k].isCustom && r == rows[k].text
    ensures (forall k :: 0 <= k < |rows| && Matches(rows[k], lang, t) ==> !rows[k].isCustom) ==> r == defaults(lang, t)
  {
    match FindPrompt(rows, lang, t)
    case Some(pc) => if pc.isCustom then pc.text else defaults(lang, t)
    case None => defaults(lang, t)
  }

  /** `load_prompts()`: one text per prompt type, in the configured language. */
  function LoadPrompts(db: ConfigDb, defaults: Defaults): (r: (ConfigDb, map<PromptType, string>))
    ensures r.0 == GetSolo(db).0
    ensures r.1.Keys == AllPromptTypes
  {
    var (db1, cfg) := GetSolo(db);
    (db1, map t | t in AllPromptTypes :: ResolvePrompt(db1.prompts, cfg.language, t, defaults))
  }

  /** Each prompt is the stored text exactly when the configured language has
      a custom row for it; otherwise it is that language's default, whatever
      text a non-custom row holds. */
  lemma LoadPromptsResolution(db: ConfigDb, defaults: Defaults, t: PromptType)
    requires UniquePrompts(db.prompts)
    ensures var lang := GetSolo(db).1.language;
      var prompts := LoadPrompts(db, defaults).1;
      && (forall k :: 0 <= k < |db.prompts| && Matches(db.prompts[k], lang, t) && db.prompts[k].isCustom
            ==> prompts[t] == db.prompts[k].text)
      && ((forall k :: 0 <= k < |db.prompts| && Matches(db.prompts[k], lang, t) ==> !db.prompts[k].isCustom)
            ==> prompts[t] == defaults(lang, t))
  {
    var lang := GetSolo(db).1.language;
    forall k | 0 <= k < |db.prompts| && Matches(db.prompts[k], lang, t)
      ensures FindPrompt(db.prompts, lang, t) == Some(db.prompts[k])
    {
      FindPromptUnique(db.prompts, lang, t, k);
    }
  }

  /** `get_or_create` for (lang, t) followed by setting both fields and saving. */
  function SavePrompt(rows: seq<PromptConfig>, lang: Language, t: PromptType, isCustom: bool, text: string): (r: seq<PromptConfig>)
    ensures exists k :: 0 <= k < |r| && r[k] == PromptConfig(lang, t, isCustom, text)
    ensures forall k :: 0 <= k < |rows| && !Matches(rows[k], lang, t) ==> rows[k] in r
    ensures forall k :: 0 <= k < |r| && !Matches(r[k], lang, t) ==> r[k] in rows
    ensures UniquePrompts(rows) ==> UniquePrompts(r)
  {
    var i := FindIndex(rows, lang, t);
    var row := PromptConfig(lang, t, isCustom, text);
    if i < 0 then
      assert (rows + [row])[|rows|] == row;
      rows + [row]
    else
      assert rows[i := row][i] == row;
      assert forall k :: 0 <= k < |rows| && k != i ==> rows[i := row][k] == rows[k];
      rows[i := row]
  }
}

=== FILE: simulator_views.dfy ===
/** The simulator's request handlers (simulator/views.py) as transitions of
    the file store and the browser session. A generated session id and the
    current time are parameters of the handlers that may need them. */
module SimulatorViews {
  import opened Wrappers
  import opened Seqs
  import opened Records
  import opened Paths
  import opened Extraction
  import opened Uploads
  import opened Http

  /** What `simulator/index.html` is rendered with. */
  datatype IndexPage = IndexPage(
    contexts: seq<ContextFile>,
    exams: seq<ExamFile>,
    sessionId: Option<string>,
    error: Option<FormError>)

  datatype Reply = RedirectIndex | ShowIndex(page: IndexPage) | NotFound

  /** The state after a request, and the response. */
  datatype Step = Step(store: Store, session: HttpSession, reply: Reply)

  /** `upload_to` of the two file fields. */
  const ContextDir := "context_files"
  const ExamDir := "exam_files"

  /** A session whose id, if any, fits the session-id column. */
  predicate SessionFits(sess: HttpSession)
  {
    sess.sessionId.Some? ==> |sess.sessionId.value| <= SessionIdMaxLength
  }

  /** `_ensure_session_id`: keep a non-empty id, otherwise store `newId`. */
  function EnsureSessionId(sess: HttpSession, newId: HexId): (r: (HttpSession, string))
    ensures HasSessionId(r.0) && r.0.sessionId == Some(r.1)
    ensures HasSessionId(sess) ==> r.0 == sess
    ensures !HasSessionId(sess) ==> r.1 == newId && r.0 == sess.(sessionId := Some(newId))
    ensures SessionFits(sess) ==> SessionFits(r.0) && |r.1| <= SessionIdMaxLength
  {
    if HasSessionId(sess) then (sess, sess.sessionId.value)
    else (sess.(sessionId := Some(newId)), newId)
  }

  /** A second call keeps the id the first one returned, whatever newId id it is offered. */
  lemma EnsureSessionIdStable(sess: HttpSession, newId1: HexId, newId2: HexId)
    ensures EnsureSessionId(EnsureSessionId(sess, newId1).0, newId2) == EnsureSessionId(sess, newId1)
  {
  }

  /** The file lists of the index page: the session's files, or none when the
      session has no id. */
  function Listing(st: Store, sess: HttpSession, error: Option<FormError>): (page: IndexPage)
    ensures page.sessionId == sess.sessionId && page.error == error
    ensures !HasSessionId(sess) ==> page.contexts == [] && page.exams == []
    ensures HasSessionId(sess) ==>
      && (forall c :: c in page.contexts <==> c in st.contexts && c.sessionId == sess.sessionId.value)
      && (forall e :: e in page.exams <==> e in st.exams && e.sessionId == sess.sessionId.value)
  {
    if HasSessionId(sess) then
      IndexPage(ContextsOf(st, sess.sessionId.value), ExamsOf(st, sess.sessionId.value), sess.sessionId, error)
    else IndexPage([], [], sess.sessionId, error)
  }

  /** `index`. */
  function Index(st: Store, sess: HttpSession): (r: Step)
    ensures r.store == st && r.session == sess
    ensures r.reply == ShowIndex(Listing(st, sess, None))
  {
    Step(st, sess, ShowIndex(Listing(st, sess, None)))
  }

  /** The record a valid context upload creates. */
  function NewContext(st: Store, u: Upload, sid: string, now: int): ContextFile
  {
    ContextFile(st.nextPk, ContextDir + "/" + u.name, now, sid)
  }

  /** The record a valid exam upload creates. */
  function NewExam(st: Store, u: Upload, sid: string, now: int): ExamFile
  {
    ExamFile(st.nextPk, ExamDir + "/" + u.name, now, sid)
  }

  /** `upload_context`. */
  function UploadContext(st: Store, sess: HttpSession, verb: Method, upload: Option<Upload>, newId: HexId, now: int): (r: Step)
    ensures verb == Get ==> r == Step(st, sess, RedirectIndex)
    ensures verb == Post && ValidateContext(upload).Failure? ==>
      r == Step(st, sess, ShowIndex(Listing(st, sess, Some(ValidateContext(upload).error))))
    ensures r.store.exams == st.exams && r.store.results == st.results
  {
    match verb
    case Get => Step(st, sess, RedirectIndex)
    case Post =>
      match ValidateContext(upload)
      case Failure(e) => Step(st, sess, ShowIndex(Listing(st, sess, Some(e))))
      case Success(u) =>
        var (sess1, sid) := EnsureSessionId(sess, newId);
        var st1 := st.(contexts := st.contexts + [NewContext(st, u, sid, now)], nextPk := st.nextPk + 1);
        Step(st1, sess1, RedirectIndex)
  }

  /** `upload_exam`. */
  function UploadExam(st: Store, sess: HttpSession, verb: Method, upload: Option<Upload>, newId: HexId, now: int): (r: Step)
    ensures verb == Get ==> r == Step(st, sess, RedirectIndex)
    ensures verb == Post && ValidateExam(upload).Failure? ==>
      r == Step(st, sess, ShowIndex(Listing(st, sess, Some(ValidateExam(upload).error))))
    ensures r.store.contexts == st.contexts && r.store.results == st.results
  {
    match verb
    case Get => Step(st, sess, RedirectIndex)
    case Post =>
      match ValidateExam(upload)
      case Failure(e) => Step(st, sess, ShowIndex(Listing(st, sess, Some(e))))
      case Success(u) =>
        var (sess1, sid) := EnsureSessionId(sess, newId);
        var st1 := st.(exams := ExamsExcept(st.exams, sid) + [NewExam(st, u, sid, now)], nextPk := st.nextPk + 1);
        Step(st1, sess1, RedirectIndex)
  }

  /** `get_object_or_404(ContextFile, pk=pk, session_id=...)`: a session
      without an id matches nothing. */
  predicate OwnsContext(st: Store, sess: HttpSession, pk: nat)
  {
    sess.sessionId.Some? && exists c :: c in st.contexts && c.pk == pk && c.sessionId == sess.sessionId.value
  }

  predicate OwnsExam(st: Store, sess: HttpSession, pk: nat)
  {
    sess.sessionId.Some? && exists e :: e in st.exams && e.pk == pk && e.sessionId == sess.sessionId.value
  }

  /** `delete_context`. */
  function DeleteContext(st: Store, sess: HttpSession, pk: nat): (r: Step)
    ensures r.session == sess
    ensures r.reply == NotFound <==> !OwnsContext(st, sess, pk)
    ensures r.reply == NotFound ==> r.store == st
    ensures r.store.exams == st.exams && r.store.results == st.results && r.store.nextPk == st.nextPk
    ensures forall c :: c in r.store.contexts <==> c in st.contexts && (r.reply == NotFound || c.pk != pk)
  {
    if OwnsContext(st, sess, pk) then
      Step(st.(contexts := Filter(st.contexts, (c: ContextFile) => c.pk != pk)), sess, RedirectIndex)
    else Step(st, sess, NotFound)
  }

  /** `delete_exam`. */
  function DeleteExam(st: Store, sess: HttpSession, pk: nat): (r: Step)
    ensures r.session == sess
    ensures r.reply == NotFound <==> !OwnsExam(st, sess, pk)
    ensures r.reply == NotFound ==> r.store == st
    ensures r.store.contexts == st.contexts && r.store.results == st.results && r.store.nextPk == st.nextPk
    ensures forall e :: e in r.store.exams <==> e in st.exams && (r.reply == NotFound || e.pk != pk)
  {
    if OwnsExam(st, sess, pk) then
      Step(st.(exams := Filter(st.exams, (e: ExamFile) => e.pk != pk)), sess, RedirectIndex)
    else Step(st, sess, NotFound)
  }

  /** The id a valid upload files its record under. */
  function UploadSid(sess: HttpSession, newId: HexId): string
  {
    EnsureSessionId(sess, newId).1
  }

  /** A valid context upload appends one record, stamped with the current
      time, to the session's context files; every other session's files and
      the exams and results stay as they were. */
  lemma ContextUploadAppends(st: Store, sess: HttpSession, u: Upload, newId: HexId, now: int, other: string)
    requires ValidateContext(Some(u)).Success?
    requires other != UploadSid(sess, newId)
    ensures var r := UploadContext(st, sess, Post, Some(u), newId, now);
      var sid := UploadSid(sess, newId);
      && r.reply == RedirectIndex
      && r.session.sessionId == Some(sid)
      && ContextsOf(r.store, sid) == ContextsOf(st, sid) + [ContextFile(st.nextPk, ContextDir + "/" + u.name, now, sid)]
      && ContextsOf(r.store, other) == ContextsOf(st, other)
      && multiset(r.store.contexts) == multiset(st.contexts) + multiset{NewContext(st, u, sid, now)}
  {
    var sid := UploadSid(sess, newId);
    FilterAppend(st.contexts, NewContext(st, u, sid, now), (c: ContextFile) => c.sessionId == sid);
    FilterAppend(st.contexts, NewContext(st, u, sid, now), (c: ContextFile) => c.sessionId == other);
  }

  /** After a valid exam upload the session has exactly one exam, the new
      one; other sessions keep theirs. */
  lemma ExamUploadReplaces(st: Store, sess: HttpSession, u: Upload, newId: HexId, now: int, other: string)
    requires ValidateExam(Some(u)).Success?
    requires other != UploadSid(sess, newId)
    ensures var r := UploadExam(st, sess, Post, Some(u), newId, now);
      var sid := UploadSid(sess, newId);
      && r.reply == RedirectIndex
      && r.session.sessionId == Some(sid)
      && ExamsOf(r.store, sid) == [ExamFile(st.nextPk, ExamDir + "/" + u.name, now, sid)]
      && ExamsOf(r.store, other) == ExamsOf(st, other)
  {
    var sid := UploadSid(sess, newId);
    ExamsReplaceScoped(st, NewExam(st, u, sid, now), UploadExam(st, sess, Post, Some(u), newId, now).store, other);
  }

  /** An uploaded exam is stored under a name that reads as a DOCX file. */
  lemma StoredExamReadsAsDocx(st: Store, sess: HttpSession, u: Upload, newId: HexId, now: int)
    requires ValidateExam(Some(u)).Success?
    ensures FormatOf(NewExam(st, u, UploadSid(sess, newId), now).file) == Docx
  {
    ExtUnderDirectory(ExamDir, u.name);
  }

  /** An invalid upload changes neither the store nor the session. */
  lemma InvalidUploadChangesNothing(st: Store, sess: HttpSession, upload: Option<Upload>, newId: HexId, now: int)
    requires ValidateContext(upload).Failure?
    ensures UploadContext(st, sess, Post, upload, newId, now).store == st
    ensures UploadContext(st, sess, Post, upload, newId, now).session == sess
    ensures ValidateExam(upload).Failure?
    ensures UploadExam(st, sess, Post, upload, newId, now).store == st
    ensures UploadExam(st, sess, Post, upload, newId, now).session == sess
  {
  }

  /** In a valid store a delete removes exactly the one matching record. */
  lemma DeleteContextRemovesOne(st: Store, sess: HttpSession, pk: nat, c: ContextFile)
    requires Valid(st)
    requires c in st.contexts && c.pk == pk && sess.sessionId == Some(c.sessionId)
    ensures DeleteContext(st, sess, pk).reply == RedirectIndex
    ensures multiset(DeleteContext(st, sess, pk).store.contexts) + multiset{c} == multiset(st.contexts)
  {
    var k :| 0 <= k < |st.contexts| && st.contexts[k] == c;
    forall j | 0 <= j < |st.contexts| && j != k
      ensures st.contexts[j].pk != pk
    {
      ContextKeyUnique(st.contexts, st.nextPk, k, j);
    }
    FilterDropsOne(st.contexts, (x: ContextFile) => x.pk != pk, k);
  }

  /** In a valid store a delete removes exactly the one matching record. */
  lemma DeleteExamRemovesOne(st: Store, sess: HttpSession, pk: nat, e: ExamFile)
    requires Valid(st)
    requires e in st.exams && e.pk == pk && sess.sessionId == Some(e.sessionId)
    ensures DeleteExam(st, sess, pk).reply == RedirectIndex
    ensures multiset(DeleteExam(st, sess, pk).store.exams) + multiset{e} == multiset(st.exams)
  {
    var k :| 0 <= k < |st.exams| && st.exams[k] == e;
    forall j | 0 <= j < |st.exams| && j != k
      ensures st.exams[j].pk != pk
    {
      ExamKeyUnique(st.exams, st.nextPk, k, j);
    }
    FilterDropsOne(st.exams, (x: ExamFile) => x.pk != pk, k);
  }

  /** A context upload keeps the store invariant and a session id that fits its column. */
  lemma UploadContextKeepsValid(st: Store, sess: HttpSession, verb: Method, upload: Option<Upload>, newId: HexId, now: int)
    requires Valid(st) && SessionFits(sess)
    ensures Valid(UploadContext(st, sess, verb, upload, newId, now).store)
    ensures SessionFits(UploadContext(st, sess, verb, upload, newId, now).session)
  {
    if verb == Post && ValidateContext(upload).Success? {
      var sid := UploadSid(sess, newId);
      var c := NewContext(st, upload.value, sid, now);
      ContextsAppend(st.contexts, st.nextPk, c);
      WellFormedRaise(st, st.nextPk + 1);
      assert UploadContext(st, sess, verb, upload, newId, now).store
          == st.(contexts := st.contexts + [c], nextPk := st.nextPk + 1);
    }
  }

  /** An exam upload keeps the store invariant, in particular one exam per
      session, and a session id that fits its column. */
  lemma UploadExamKeepsValid(st: Store, sess: HttpSession, verb: Method, upload: Option<Upload>, newId: HexId, now: int)
    requires Valid(st) && SessionFits(sess)
    ensures Valid(UploadExam(st, sess, verb, upload, newId, now).store)
    ensures SessionFits(UploadExam(st, sess, verb, upload, newId, now).session)
  {
    if verb == Post && ValidateExam(upload).Success? {
      ExamsReplace(st.exams, st.nextPk, NewExam(st, upload.value, UploadSid(sess, newId), now));
    }
  }

  /** The delete handlers keep the store invariant. */
  lemma DeletesKeepValid(st: Store, sess: HttpSession, pk: nat)
    requires Valid(st)
    ensures Valid(DeleteContext(st, sess, pk).store)
    ensures Valid(DeleteExam(st, sess, pk).store)
  {
    ContextsFilter(st.contexts, st.nextPk, (c: ContextFile) => c.pk != pk);
    ExamsFilter(st.exams, st.nextPk, (e: ExamFile) => e.pk != pk);
  }
}

=== FILE: string_order.dfy ===
/** Python's ordering of `str` values (lexicographic by code point, a proper
    prefix first) and `sorted` applied to a set of strings. */
module StringOrder {

  /** `a <= b` on Python strings. */
  predicate Below(a: string, b: string)
    decreases |a|
  {
    |a| == 0 || (|b| > 0 && (a[0] < b[0] || (a[0] == b[0] && Below(a[1..], b[1..]))))
  }

  lemma {:induction false} BelowReflexive(a: string)
    ensures Below(a, a)
    decreases |a|
  {
    if |a| > 0 {
      BelowReflexive(a[1..]);
    }
  }

  lemma {:induction false} BelowTotal(a: string, b: string)
    ensures Below(a, b) || Below(b, a)
    decreases |a|
  {
    if |a| > 0 && |b| > 0 && a[0] == b[0] {
      BelowTotal(a[1..], b[1..]);
    }
  }

  lemma {:induction false} BelowAntisymmetric(a: string, b: string)
    requires Below(a, b) && Below(b, a)
    ensures a == b
    decreases |a|
  {
    if |a| > 0 {
      BelowAntisymmetric(a[1..], b[1..]);
      assert a == [a[0]] + a[1..] && b == [b[0]] + b[1..];
    }
  }

  lemma {:induction false} BelowTransitive(a: string, b: string, c: string)
    requires Below(a, b) && Below(b, c)
    ensures Below(a, c)
    decreases |a|
  {
    if |a| > 0 && a[0] == b[0] && b[0] == c[0] {
      BelowTransitive(a[1..], b[1..], c[1..]);
    }
  }

  /** Strictly increasing: the shape of `sorted` applied to a set. */
  predicate StrictlySorted(xs: seq<string>)
  {
    forall i, j :: 0 <= i < j < |xs| ==> Below(xs[i], xs[j]) && xs[i] != xs[j]
  }

  predicate IsLeast(m: string, s: set<string>)
  {
    m in s && forall x :: x in s ==> Below(m, x)
  }

  /** Every non-empty finite set of strings has a least element. */
  lemma {:induction false} LeastExists(s: set<string>)
    requires s != {}
    ensures exists m :: IsLeast(m, s)
    decreases s
  {
    var y :| y in s;
    if s == {y} {
      BelowReflexive(y);
      assert IsLeast(y, s);
    } else {
      LeastExists(s - {y});
      var m :| IsLeast(m, s - {y});
      BelowTotal(m, y);
      if Below(m, y) {
        assert IsLeast(m, s);
      } else {
        forall x | x in s
          ensures Below(y, x)
        {
          if x == y {
            BelowReflexive(y);
          } else {
            BelowTransitive(y, m, x);
          }
        }
        assert IsLeast(y, s);
      }
    }
  }

  lemma LeastUnique(m: string, n: string, s: set<string>)
    requires IsLeast(m, s) && IsLeast(n, s)
    ensures m == n
  {
    BelowAntisymmetric(m, n);
  }

  /** A head strictly below every element of a sorted tail keeps it sorted. */
  lemma SortedCons(m: string, rest: seq<string>)
    requires StrictlySorted(rest)
    requires forall k :: 0 <= k < |rest| ==> Below(m, rest[k]) && m != rest[k]
    ensures StrictlySorted([m] + rest)
  {
    var r := [m] + rest;
    forall i, j | 0 <= i < j < |r|
      ensures Below(r[i], r[j]) && r[i] != r[j]
    {
      assert r[j] == rest[j - 1];
      if i > 0 {
        assert r[i] == rest[i - 1];
      }
    }
  }

  /** `sorted(s)` for a set of strings. */
  function SortedList(s: set<string>): (r: seq<string>)
    ensures StrictlySorted(r)
    ensures forall x :: x in r <==> x in s
    ensures |r| == |s|
    decreases s
  {
    if s == {} then []
    else
      LeastExists(s);
      assert forall m, n :: IsLeast(m, s) && IsLeast(n, s) ==> m == n by {
        forall m, n | IsLeast(m, s) && IsLeast(n, s) ensures m == n {
          LeastUnique(m, n, s);
        }
      }
      var m :| IsLeast(m, s);
      var rest := SortedList(s - {m});
      assert forall k :: 0 <= k < |rest| ==> Below(m, rest[k]) && m != rest[k] by {
        forall k | 0 <= k < |rest| ensures Below(m, rest[k]) && m != rest[k] {
          assert rest[k] in s - {m};
        }
      }
      SortedCons(m, rest);
      [m] + rest
  }

  /** A strictly sorted list is determined by its elements. */
  lemma {:induction false} SortedUnique(a: seq<string>, b: seq<string>)
    requires StrictlySorted(a) && StrictlySorted(b)
    requires forall x :: x in a <==> x in b
    ensures a == b
    decreases |a|
  {
    if |a| > 0 {
      assert a[0] in b;
    }
    if |b| > 0 {
      assert b[0] in a;
    }
    if |a| > 0 && |b| > 0 {
      // both heads are the least element of the common set
      var i :| 0 <= i < |b| && b[i] == a[0];
      var j :| 0 <= j < |a| && a[j] == b[0];
      if a[0] != b[0] {
        assert i > 0 && j > 0;
        BelowAntisymmetric(a[0], b[0]);
      }
      forall x
        ensures x in a[1..] <==> x in b[1..]
      {
        if x in a[1..] {
          var k :| 1 <= k < |a| && a[k] == x;
          assert x != a[0];
          assert x in b;
        }
        if x in b[1..] {
          var k :| 1 <= k < |b| && b[k] == x;
          assert x != b[0];
          assert x in a;
        }
      }
      SortedUnique(a[1..], b[1..]);
      assert a == [a[0]] + a[1..] && b == [b[0]] + b[1..];
    }
  }
}

=== FILE: text.dfy ===
/** String primitives of the Python runtime that the application relies on:
    `str.join`, `str.split` (single-character separator), `str.lower`,
    `str.strip`, and the universal-newline translation done when a file is
    opened in text mode. Strings are sequences of code points. */
module Text {

  /** `sep.join(parts)`: the parts in order, with `sep` between neighbours. */
  function Join(parts: seq<string>, sep: string): (r: string)
    ensures |parts| == 0 ==> r == ""
    ensures |parts| == 1 ==> r == parts[0]
    ensures |parts| > 0 ==> |r| == TotalLength(parts) + (|parts| - 1) * |sep|
    decreases |parts|
  {
    if |parts| == 0 then ""
    else if |parts| == 1 then parts[0]
    else parts[0] + sep + Join(parts[1..], sep)
  }

  /** Sum of the lengths of the parts. */
  function TotalLength(parts: seq<string>): nat
    decreases |parts|
  {
    if |parts| == 0 then 0 else |parts[0]| + TotalLength(parts[1..])
  }

  /** `s.split(c)`: the maximal pieces of `s` that do not contain `c`; never empty. */
  function Split(s: string, c: char): (r: seq<string>)
    ensures |r| >= 1
    ensures forall k :: 0 <= k < |r| ==> c !in r[k]
    decreases |s|
  {
    if |s| == 0 then [""]
    else
      var rest := Split(s[1..], c);
      if s[0] == c then [""] + rest
      else [[s[0]] + rest[0]] + rest[1..]
  }

  /** Joining the pieces of a split with the separator gives the string back. */
  lemma {:induction false} JoinSplit(s: string, c: char)
    ensures Join(Split(s, c), [c]) == s
    decreases |s|
  {
    if |s| > 0 {
      JoinSplit(s[1..], c);
      var rest := Split(s[1..], c);
      if s[0] == c {
        assert Split(s, c) == [""] + rest;
        assert Join([""] + rest, [c]) == "" + [c] + Join(rest, [c]) by {
          assert ([""] + rest)[1..] == rest;
        }
        assert s == [s[0]] + s[1..];
      } else {
        var r := Split(s, c);
        assert r == [[s[0]] + rest[0]] + rest[1..];
        if |rest| == 1 {
          assert r == [[s[0]] + rest[0]];
          assert s == [s[0]] + s[1..];
        } else {
          assert r[1..] == rest[1..];
          assert Join(rest, [c]) == rest[0] + [c] + Join(rest[1..], [c]);
          assert Join(r, [c]) == ([s[0]] + rest[0]) + [c] + Join(rest[1..], [c]);
          assert s == [s[0]] + s[1..];
        }
      }
    }
  }

  /** Splitting a join recovers the parts, provided no part contains the separator. */
  lemma {:induction false} SplitJoin(parts: seq<string>, c: char)
    requires |parts| > 0
    requires forall k :: 0 <= k < |parts| ==> c !in parts[k]
    ensures Split(Join(parts, [c]), c) == parts
    decreases |parts|
  {
    if |parts| == 1 {
      SplitFree(parts[0], c);
    } else {
      SplitJoin(parts[1..], c);
      SplitPrefix(parts[0], Join(parts[1..], [c]), c);
      assert parts == [parts[0]] + parts[1..];
    }
  }

  /** A string without the separator splits into itself alone. */
  lemma {:induction false} SplitFree(s: string, c: char)
    requires c !in s
    ensures Split(s, c) == [s]
    decreases |s|
  {
    if |s| > 0 {
      SplitFree(s[1..], c);
      assert s == [s[0]] + s[1..];
    }
  }

  /** Splitting `a + [c] + b` where `a` is free of `c`. */
  lemma {:induction false} SplitPrefix(a: string, b: string, c: char)
    requires c !in a
    ensures Split(a + [c] + b, c) == [a] + Split(b, c)
    decreases |a|
  {
    if |a| == 0 {
      assert a + [c] + b == [c] + b;
      assert ([c] + b)[1..] == b;
    } else {
      SplitPrefix(a[1..], b, c);
      var s := a + [c] + b;
      assert s[0] == a[0];
      assert s[1..] == a[1..] + [c] + b;
      assert [a[0]] + a[1..] == a;
    }
  }

  /** Python's `str.lower` on the ASCII letters. */
  function LowerChar(ch: char): (r: char)
    ensures 'A' <= ch <= 'Z' ==> r as int == ch as int + 32
    ensures !('A' <= ch <= 'Z') ==> r == ch
    ensures !('A' <= r <= 'Z')
  {
    if 'A' <= ch <= 'Z' then (ch as int + 32) as char else ch
  }

  function Lower(s: string): (r: string)
    ensures |r| == |s|
    ensures forall k {:trigger r[k]} :: 0 <= k < |s| ==> r[k] == LowerChar(s[k])
  {
    seq(|s|, k requires 0 <= k < |s| => LowerChar(s[k]))
  }

  /** Lower-casing twice is lower-casing once. */
  lemma LowerIdempotent(s: string)
    ensures Lower(Lower(s)) == Lower(s)
  {
  }

  /** Lower-casing distributes over concatenation. */
  lemma LowerAppend(a: string, b: string)
    ensures Lower(a + b) == Lower(a) + Lower(b)
  {
  }

  /** The characters for which Python's `str.isspace` holds. */
  predicate IsSpace(ch: char)
  {
    ch == ' ' || ('\t' <= ch <= '\r') || ('\U{1C}' <= ch <= '\U{1F}')
    || ch == '\U{85}' || ch == '\U{A0}' || ch == '\U{1680}'
    || ('\U{2000}' <= ch <= '\U{200A}') || ch == '\U{2028}' || ch == '\U{2029}'
    || ch == '\U{202F}' || ch == '\U{205F}' || ch == '\U{3000}'
  }

  function StripLeft(s: string): (r: string)
    ensures |r| <= |s| && r == s[|s| - |r|..]
    ensures forall k :: 0 <= k < |s| - |r| ==> IsSpace(s[k])
    ensures |r| == 0 || !IsSpace(r[0])
    decreases |s|
  {
    if |s| > 0 && IsSpace(s[0]) then StripLeft(s[1..]) else s
  }

  function StripRight(s: string): (r: string)
    ensures |r| <= |s| && r == s[..|r|]
    ensures forall k :: |r| <= k < |s| ==> IsSpace(s[k])
    ensures |r| == 0 || !IsSpace(r[|r| - 1])
    decreases |s|
  {
    if |s| > 0 && IsSpace(s[|s| - 1]) then StripRight(s[..|s| - 1]) else s
  }

  /** `s.strip()`: leading and trailing whitespace removed. */
  function Strip(s: string): (r: string)
    ensures |r| <= |s|
    ensures |r| == 0 || (!IsSpace(r[0]) && !IsSpace(r[|r| - 1]))
  {
    StripRight(StripLeft(s))
  }

  /** What `strip` keeps is the infix of the input that remains once its
      leading and trailing whitespace are cut off. */
  lemma StripIsInfix(s: string)
    ensures var r := Strip(s);
      exists i :: 0 <= i <= |s| && r <= s[i..]
                  && (forall k :: 0 <= k < i ==> IsSpace(s[k]))
                  && (forall k :: i + |r| <= k < |s| ==> IsSpace(s[k]))
  {
    var l := StripLeft(s);
    var r := StripRight(l);
    var i := |s| - |l|;
    assert r <= s[i..] by {
      assert l == s[i..];
    }
    forall k | i + |r| <= k < |s|
      ensures IsSpace(s[k])
    {
      assert s[k] == l[k - i];
    }
  }

  /** Stripping an already stripped string changes nothing. */
  lemma StripIdempotent(s: string)
    ensures Strip(Strip(s)) == Strip(s)
  {
    var r := Strip(s);
    if |r| > 0 {
      assert StripLeft(r) == r;
      assert StripRight(r) == r;
    }
  }

  /** Universal-newline translation: `"\r\n"` and a lone `"\r"` both become `"\n"`. */
  function TranslateNewlines(s: string): (r: string)
    ensures '\r' !in r
    ensures |r| <= |s|
    decreases |s|
  {
    if |s| == 0 then ""
    else if s[0] == '\r' then
      if |s| > 1 && s[1] == '\n' then "\n" + TranslateNewlines(s[2..])
      else "\n" + TranslateNewlines(s[1..])
    else [s[0]] + TranslateNewlines(s[1..])
  }

  /** Text without carriage returns is read back unchanged. */
  lemma {:induction false} TranslateNewlinesIdentity(s: string)
    requires '\r' !in s
    ensures TranslateNewlines(s) == s
    decreases |s|
  {
    if |s| > 0 {
      TranslateNewlinesIdentity(s[1..]);
      assert s == [s[0]] + s[1..];
    }
  }

  /** Translating twice is translating once. */
  lemma TranslateNewlinesIdempotent(s: string)
    ensures TranslateNewlines(TranslateNewlines(s)) == TranslateNewlines(s)
  {
    TranslateNewlinesIdentity(TranslateNewlines(s));
  }

  /** A carriage-return-free prefix passes through untranslated. */
  lemma {:induction false} TranslateNewlinesPlainPrefix(a: string, b: string)
    requires '\r' !in a
    ensures TranslateNewlines(a + b) == a + TranslateNewlines(b)
    decreases |a|
  {
    if |a| > 0 {
      assert a[0] in a;
      assert (a + b)[0] == a[0];
      assert (a + b)[1..] == a[1..] + b;
      assert TranslateNewlines(a + b) == [a[0]] + TranslateNewlines(a[1..] + b);
      TranslateNewlinesPlainPrefix(a[1..], b);
      assert a == [a[0]] + a[1..];
      assert [a[0]] + (a[1..] + TranslateNewlines(b)) == a + TranslateNewlines(b);
    } else {
      assert a + b == b;
    }
  }

  /** A join of two or more parts is the first part, the separator, and the join of the rest. */
  lemma JoinCons(parts: seq<string>, sep: string)
    requires |parts| > 1
    ensures Join(parts, sep) == parts[0] + (sep + Join(parts[1..], sep))
  {
  }

  /** A join of line-break-free parts with `"\r"` never starts with `"\n"`. */
  lemma JoinHead(parts: seq<string>, sep: string)
    requires sep == "\n" || sep == "\r" || sep == "\r\n"
    requires forall k :: 0 <= k < |parts| ==> '\n' !in parts[k]
    ensures var j := Join(parts, sep); sep == "\r" ==> j == "" || j[0] != '\n'
  {
    if |parts| > 0 {
      var j := Join(parts, sep);
      if parts[0] != "" {
        assert parts[0][0] in parts[0];
        if |parts| > 1 {
          JoinCons(parts, sep);
        }
        assert j[0] == parts[0][0];
      } else if |parts| > 1 {
        JoinCons(parts, sep);
        assert j[0] == sep[0];
      }
    }
  }

  /** Each of the three line endings becomes one `"\n"`; a lone `"\r"` is not
      followed by a `"\n"` that would join it into a `"\r\n"`. */
  lemma LineEndTranslated(sep: string, rest: string)
    requires sep == "\n" || sep == "\r" || sep == "\r\n"
    requires sep == "\r" ==> rest == "" || rest[0] != '\n'
    ensures TranslateNewlines(sep + rest) == "\n" + TranslateNewlines(rest)
  {
    if sep == "\r\n" {
      assert (sep + rest)[2..] == rest;
    } else {
      assert (sep + rest)[1..] == rest;
    }
  }

  /** Lines free of line breaks, joined by `"\n"`, `"\r"` or `"\r\n"`, read back
      joined by `"\n"`: every line ending becomes a line feed. */
  lemma {:induction false} TranslateNewlinesJoin(lines: seq<string>, sep: string)
    requires sep == "\n" || sep == "\r" || sep == "\r\n"
    requires forall k :: 0 <= k < |lines| ==> '\r' !in lines[k] && '\n' !in lines[k]
    ensures TranslateNewlines(Join(lines, sep)) == Join(lines, "\n")
    decreases |lines|
  {
    if |lines| == 1 {
      TranslateNewlinesIdentity(lines[0]);
    } else if |lines| > 1 {
      var rest := Join(lines[1..], sep);
      JoinHead(lines[1..], sep);
      JoinCons(lines, sep);
      JoinCons(lines, "\n");
      TranslateNewlinesPlainPrefix(lines[0], sep + rest);
      LineEndTranslated(sep, rest);
      TranslateNewlinesJoin(lines[1..], sep);
    }
  }
}

=== FILE: uploads.dfy ===
/** Upload validation of the simulator's two forms (simulator/forms.py): a
    file is accepted when its lower-cased extension is one of a fixed set. */
module Uploads {
  import opened Wrappers
  import opened Text
  import opened Paths
  import opened StringOrder

  /** An uploaded file as the form receives it. */
  datatype Upload = Upload(name: string, size: nat)

  /** `ContextUploadForm.ALLOWED_EXTENSIONS`. */
  const ContextExtensions: set<string> := {".txt", ".csv", ".pdf", ".docx"}
  /** `ExamUploadForm.ALLOWED_EXTENSIONS`. */
  const ExamExtensions: set<string> := {".docx"}

  /** Why a form is invalid: the file field's own checks, or `clean_file`. */
  datatype FormError = Required | NoFileName | EmptyFile | Unsupported(message: string)

  const UnsupportedPrefix := "Unsupported file type. Allowed: "

  /** The rejection text: the allowed extensions, sorted, comma separated. */
  function UnsupportedMessage(allowed: set<string>): (m: string)
    ensures UnsupportedPrefix <= m
    ensures |allowed| == 1 ==> m == UnsupportedPrefix + SortedList(allowed)[0]
  {
    UnsupportedPrefix + Join(SortedList(allowed), ", ")
  }

  /** `clean_file`: accept iff the lower-cased extension is allowed. */
  function CleanFile(upload: Upload, allowed: set<string>): (r: Result<Upload, FormError>)
    ensures r.Success? <==> LowerExt(upload.name) in allowed
    ensures r.Success? ==> r.value == upload
    ensures r.Failure? ==> r.error == Unsupported(UnsupportedMessage(allowed))
  {
    if LowerExt(upload.name) !in allowed then Failure(Unsupported(UnsupportedMessage(allowed)))
    else Success(upload)
  }

  /** The form's validation: the required file field (present, named,
      non-empty) and then `clean_file`. */
  function ValidateUpload(upload: Option<Upload>, allowed: set<string>): (r: Result<Upload, FormError>)
    ensures r.Success? <==> upload.Some? && upload.value.name != "" && upload.value.size > 0
                            && LowerExt(upload.value.name) in allowed
    ensures r.Success? ==> r.value == upload.value
  {
    match upload
    case None => Failure(Required)
    case Some(u) =>
      if u.name == "" then Failure(NoFileName)
      else if u.size == 0 then Failure(EmptyFile)
      else CleanFile(u, allowed)
  }

  function ValidateContext(upload: Option<Upload>): Result<Upload, FormError>
  {
    ValidateUpload(upload, ContextExtensions)
  }

  function ValidateExam(upload: Option<Upload>): Result<Upload, FormError>
  {
    ValidateUpload(upload, ExamExtensions)
  }

  /** The context form lists its extensions in sorted order. */
  lemma ContextRejectionText()
    ensures UnsupportedMessage(ContextExtensions) == UnsupportedPrefix + ".csv, .docx, .pdf, .txt"
  {
    var listed := [".csv", ".docx", ".pdf", ".txt"];
    ListedSorted();
    ListedElements();
    var sorted := SortedList(ContextExtensions);
    SortedUnique(sorted, listed);
    assert sorted == listed;
    ListedJoin();
  }

  lemma ListedElements()
    ensures forall x :: x in [".csv", ".docx", ".pdf", ".txt"] <==> x in ContextExtensions
  {
  }

  lemma ListedJoin()
    ensures Join([".csv", ".docx", ".pdf", ".txt"], ", ") == ".csv, .docx, .pdf, .txt"
  {
    var listed := [".csv", ".docx", ".pdf", ".txt"];
    assert listed[1..] == [".docx", ".pdf", ".txt"];
    assert listed[1..][1..] == [".pdf", ".txt"];
    assert listed[1..][1..][1..] == [".txt"];
  }

  lemma ListedSorted()
    ensures StrictlySorted([".csv", ".docx", ".pdf", ".txt"])
  {
    var listed := [".csv", ".docx", ".pdf", ".txt"];
    assert Below(".csv", ".docx") by {
      assert ".csv"[1..] == "csv" && ".docx"[1..] == "docx";
    }
    assert Below(".docx", ".pdf") by {
      assert ".docx"[1..] == "docx" && ".pdf"[1..] == "pdf";
    }
    assert Below(".pdf", ".txt") by {
      assert ".pdf"[1..] == "pdf" && ".txt"[1..] == "txt";
    }
    BelowTransitive(".csv", ".docx", ".pdf");
    BelowTransitive(".csv", ".pdf", ".txt");
    BelowTransitive(".docx", ".pdf", ".txt");
  }

  /** The exam form names its single extension. */
  lemma ExamRejectionText()
    ensures UnsupportedMessage(ExamExtensions) == UnsupportedPrefix + ".docx"
  {
    assert SortedList(ExamExtensions)[0] in ExamExtensions;
  }

  /** Every file the exam form accepts, the context form accepts too. */
  lemma ExamAcceptedIsContextAccepted(upload: Option<Upload>)
    requires ValidateExam(upload).Success?
    ensures ValidateContext(upload).Success?
  {
  }

  /** A name without an extension, such as a dot file, is refused by both forms. */
  lemma NoExtensionRefused(u: Upload)
    requires Ext(u.name) == ""
    ensures ValidateContext(Some(u)).Failure? && ValidateExam(Some(u)).Failure?
  {
  }

  /** Upper-case extensions are accepted: "X.PDF" is a context file. */
  lemma UpperCaseAccepted()
    ensures ValidateContext(Some(Upload("X.PDF", 10))) == Success(Upload("X.PDF", 10))
    ensures ValidateExam(Some(Upload("exam.DOCX", 10))).Success?
  {
    PdfUpper();
    DocxUpper();
  }

  lemma PdfUpper()
    ensures LowerExt("X.PDF") == ".pdf"
  {
    assert "X.PDF"[1..] == ".PDF";
    assert Lower(".PDF") == ".pdf";
    LowerExtOf("X.PDF", 1, ".pdf");
  }

  lemma DocxUpper()
    ensures LowerExt("exam.DOCX") == ".docx"
  {
    assert "exam.DOCX"[4..] == ".DOCX";
    assert Lower(".DOCX") == ".docx";
    LowerExtOf("exam.DOCX", 4, ".docx");
  }

  /** The lower-cased extension of a plain name whose last dot is at `i`. */
  lemma LowerExtOf(b: string, i: int, lower: string)
    requires 0 < i < |b| && '/' !in b && b[0] != '.' && b[i] == '.'
    requires forall k :: i < k < |b| ==> b[k] != '.'
    requires Lower(b[i..]) == lower
    ensures LowerExt(b) == lower
  {
    ExtOfPlainName(b, i);
  }

  /** A dot file named ".docx" has no extension, so the exam form refuses it. */
  lemma DotFileRefused()
    ensures ValidateExam(Some(Upload(".docx", 10))) == Failure(Unsupported(UnsupportedMessage(ExamExtensions)))
  {
    DotFileNoExt(".docx");
  }

  /** A PDF is not an exam. */
  lemma PdfIsNoExam()
    ensures ValidateExam(Some(Upload("exam.pdf", 10))).Failure?
  {
    assert LowerExt("exam.pdf") == ".pdf" by {
      assert "exam.pdf"[4..] == ".pdf";
      assert Lower(".pdf") == ".pdf";
      LowerExtOf("exam.pdf", 4, ".pdf");
    }
  }
}

=== FILE: wrappers.dfy ===
/** Failure-compatible Option and Result datatypes used throughout the model. */
module Wrappers {

  datatype Option<+T> = None | Some(value: T) {
    predicate IsFailure() {
      None?
    }

    function PropagateFailure<U>(): Option<U>
      requires None?
    {
      None
    }

    function Extract(): T
      requires Some?
    {
      value
    }

    function GetOr(default: T): T {
      match this
      case Some(v) => v
      case None => default
    }
  }

  datatype Result<+R, +E> = Success(value: R) | Failure(error: E) {
    predicate IsFailure() {
      Failure?
    }

    function PropagateFailure<U>(): Result<U, E>
      requires Failure?
    {
      Failure(error)
    }

    function Extract(): R
      requires Success?
    {
      value
    }
  }
}
